=== FILE: README.md ===
# InstallMacOs client, modelled in Dafny

The InstallMacOs client is a small macOS installer, `InstallerApp`. It checks three
prerequisites, fetches a file list from an HTTP server, then downloads each file into
`/var/tmp`. Each `.zip` it downloads is extracted with `/usr/bin/unzip` and the archive is
then deleted. The first failure aborts the whole run. A companion command-line harness,
`test_installer.swift`, exercises the same steps. It only logs each outcome, skips a failing
file and goes on to the next.

Both programs are modelled as pure functions from a configuration and an oracle of host
outcomes to a trace of events:

- `Environment.Env` is the oracle. It holds the writability flag, the free byte count, the
  `which unzip` status, the list fetch result, and the per-file download, presence and
  extraction outcomes. It also holds the discarded removal and directory-creation results,
  and the directory listing.
- `Trace.Event` is one trace event:
  - progress values, status or log messages, and the file-info label;
  - each I/O request, as an `IoAction`;
  - the end of the run (`Terminate`, `Completed`, or a runtime `Trap`).
- `Installer.Run` models `runInstallation`.
- `Harness.TestPrerequisites`, `Harness.TestFileDownload` and `Harness.TestUnzip` model the
  three harness tests.

The properties are stated over projections of the trace: its I/O requests, transfers,
downloads, progress values and last event. Each is compared against an independent
description:

- `FailedGate` and `GateIo` describe the prerequisite gates.
- `FirstFailure` and `Attempted` describe the abort point.
- `EntryTransfers` and `PlannedTransfers` give the per-entry plan of downloads, extractions
  and removals.
- `Checkpoints` gives the progress formula.
- `CheckedPrefixSize` gives Swift's trapping `Int64` sum.

Module layout:

| module | file | content |
|---|---|---|
| `Wrappers` | wrappers.dfy | `Option`, `Result`, `Outcome` |
| `Manifest` | manifest.dfy | `FileInfo`, `FileList`, the `.zip` suffix test, the checked total size |
| `Transfer` | transfer.dfy | list URL, file URL, destination path and their inverses |
| `Tools` | tools.dfy | `isUnzipInstalled`, the `unzip` argument vector and its error mapping |
| `Trace` | trace.dfy | events, I/O requests, projections and their append laws |
| `Environment` | environment.dfy | configuration, oracle, prerequisites, abort point, per-entry plans |
| `Plans` | plans.dfy | what a plan downloads, extracts and removes, and in which order |
| `Installer` | installer.dfy | `runInstallation` |
| `InstallerProofs` | installer_proofs.dfy | the loop, the list fetch and the gates, piece by piece |
| `InstallerTheorems` | installer_theorems.dfy | the run-level properties |
| `Harness` | harness.dfy | `testPrerequisites`, `testFileDownload`, `testUnzip` |
| `HarnessProofs` | harness_proofs.dfy | the harness's properties |
| `Contrast` | contrast.dfy | the installer against the harness |

In one place the model follows the code against the program's own words: the free-space
threshold is the literal `20 * 1024 * 1024`, compared with a byte count. This
is 20 MiB, although the comment "20 GB en KB" and the message "20GB requis" announce 20 GB
(see "## Findings").

The rest of the model is parametric in `Config.requiredSpace`, so every theorem holds for
both the threshold as written and the threshold as intended.

Other modelling choices:

- The working directory is created only after all three checks pass, and the result of
  that creation is discarded.
- An empty list gives a warning, then termination.
- The list fetch has two failure modes: the read fails, or the body does not decode.
- The total size is a checked `Int64` sum. An overflow traps the process, which is the
  `Trap` event.

## Model

| member | source | states |
|---|---|---|
| `Manifest.CheckedPrefixSize` | InstallerApp/main.swift:169 | The checked fold gives a value exactly when every running total stays within `Int64`, and that value is the exact sum of the declared sizes |
| `Manifest.TotalSize` | InstallerApp/main.swift:169 | The loop form of `reduce(0) { $0 + $1.size }` reports an overflow exactly when the checked fold traps; otherwise its total is the exact sum |
| `Manifest.NoneStaysNone` | InstallerApp/main.swift:169 | Once a running total has trapped, every longer prefix traps too |
| `Manifest.TotalOfNonNegativeSizes` | test_installer.swift:94 | With non-negative sizes, the sum traps exactly when the true total exceeds `Int64.max`; otherwise the logged total is the sum of all sizes |
| `Transfer.DownloadURLRoundTrip` | InstallerApp/main.swift:275-282 | The file name can be read back from the file URL `server/files/name`, and every file URL extends the list URL `server/files` |
| `Transfer.DestinationRoundTrip` | InstallerApp/main.swift:283 | The file name can be read back from the destination `dir/name` |
| `Transfer.DownloadURLInjective` | InstallerApp/main.swift:282 | Distinct entry names are requested from distinct URL strings |
| `Transfer.DestinationInjective` | InstallerApp/main.swift:283 | Distinct entry names are written to distinct path strings |
| `Transfer.ArchiveDestination` | InstallerApp/main.swift:188-193 | The `.zip` test gives the same answer on an entry's name and on its destination path |
| `Tools.IsUnzipInstalled` | InstallerApp/main.swift:258-273 | The lookup succeeds only if `which unzip` launched, and then exactly when it exited with 0; a launch failure gives false |
| `Tools.UnzipResult` | InstallerApp/main.swift:294-305 | Extraction fails exactly when the tool did not exit with 0; a launch failure and a non-zero status give their own errors, and the status becomes the error code |
| `Tools.ToolChecksAgree` | test_installer.swift:264-313 | The tool lookup and the extraction share one success criterion, and an extraction error never carries status 0 |
| `Environment.FirstFailure` | InstallerApp/main.swift:173-201 | The abort point: every entry before it succeeds, and the entry at it (if any) fails |
| `Environment.EntryError` | InstallerApp/main.swift:184-199 | The error reported for a failing entry is the download's exactly when the download failed, and then it is that download's own error; otherwise it is the error `unzipFile` threw for an archive whose tool did not exit with 0 |
| `Installer.ProgressBefore` | InstallerApp/main.swift:174 | The value `40 + i / n * 60` before entry `i` of `n` lies in `[40, 100)` |
| `InstallerProofs.CheckpointsNonDecreasing` | InstallerApp/main.swift:173-175 | The per-entry progress values never decrease |
| `InstallerProofs.EntryEventsFacts` | InstallerApp/main.swift:173-201 | One entry reports its progress value first and issues exactly its planned transfers; it ends in `Terminate` exactly when its download or extraction fails |
| `InstallerProofs.LoopTransfers` | InstallerApp/main.swift:173-201 | The loop issues exactly the planned transfers of the entries up to and including the first failing one |
| `InstallerProofs.LoopProgress` | InstallerApp/main.swift:173-204 | The loop reports the checkpoint of each entry it starts, in order, and 100 only when no entry fails |
| `InstallerProofs.LoopEnds` | InstallerApp/main.swift:173-213 | The loop ends exactly once: `Completed` when no entry fails, `Terminate` otherwise |
| `InstallerProofs.InstallEnds` | InstallerApp/main.swift:157-221 | From the list fetch on, the run ends exactly once. It traps when the size sum overflows. It completes only after a usable list whose entries all succeed |
| `InstallerProofs.RunStoppedAtGate` | InstallerApp/main.swift:116-146 | A run stopped by a gate issues only the probes it reached, reports only the passed gates' progress values, issues no transfer, and ends in `Terminate` |
| `InstallerProofs.RunPassedGates` | InstallerApp/main.swift:113-155 | A run past the gates issues every probe and the directory creation, reports 0 to 40, and then behaves as the list fetch and loop do |
| `InstallerTheorems.PrerequisiteGates` | InstallerApp/main.swift:116-146 | The probes run in the fixed order writable, space, `unzip`. I/O stops at the first failing gate. The list is fetched exactly when all three prerequisites hold |
| `InstallerTheorems.SpaceGateDecides` | InstallerApp/main.swift:126-135 | Past the writability check, the run goes on to the `unzip` lookup exactly when free bytes reach the threshold; a failed free-space query counts as 0 |
| `InstallerTheorems.ThresholdAsWritten` | InstallerApp/main.swift:126-130 | With the installer's constant, exactly 20 MiB free passes, one byte less fails, and 1 GiB passes |
| `InstallerTheorems.IntendedThreshold` | InstallerApp/main.swift:126-132 | With the announced 20 GB threshold, 1 GiB free stops the run at the space gate, and exactly 20 GiB passes |
| `InstallerTheorems.ProgressReport` | InstallerApp/main.swift:114-204 | The progress values never decrease and stay within 0 and 100. They are 0, 10, 20, 30, 40, then `40 + i / n * 60` for each entry started. 100 appears exactly when the installation succeeds. A run that never reaches the loop stays at or below 40 |
| `InstallerTheorems.RunTransfers` | InstallerApp/main.swift:173-201 | The run's transfers are exactly the plans of the attempted entries, and none if the loop is not reached |
| `InstallerTheorems.ListFailureStops` | InstallerApp/main.swift:157-221 | A failed fetch or an empty list means no transfer and progress left at 40. The error, or for an empty list the warning, is reported. Then the run terminates |
| `InstallerTheorems.AbortOnFirstFailure` | InstallerApp/main.swift:173-201 | Entries are downloaded in list order, one request each, up to and including the first that fails, and no further. Every downloaded entry but the last succeeded. If one was not downloaded, the last downloaded one failed |
| `InstallerTheorems.ExtractionRules` | InstallerApp/main.swift:184-195 | An archive that arrived is extracted into the working directory, and nothing else is. It is removed exactly when its extraction exited with 0. Each removal directly follows its extraction, which directly follows its download. No path string of a name without `.zip` is ever extracted or removed |
| `InstallerTheorems.RunEnds` | InstallerApp/main.swift:97-222 | The run ends exactly once. It ends in `Completed` exactly when it succeeds, in `Trap` exactly when the prerequisites pass and the size sum overflows, and in `Terminate` otherwise |
| `InstallerTheorems.FailureReported` | InstallerApp/main.swift:116-220 | A run that ends in `Terminate` reports its cause just before: the failed gate, the fetch error, the empty list, or the first failing entry with its error |
| `InstallerTheorems.IgnoredOutcomes` | InstallerApp/main.swift:150-194 | The results of the directory creation and of the archive removal change nothing; the removal is reported whether or not it worked |
| `InstallerTheorems.TotalAnnounced` | InstallerApp/main.swift:169-170 | With a usable list, the total announced is the sum of the declared sizes |
| `HarnessProofs.PrerequisitesReported` | test_installer.swift:27-53 | All three probes run, in order, whatever their outcomes. Each verdict logged matches its probe: the space verdict is positive exactly when free bytes reach the threshold |
| `HarnessProofs.LoopFacts` | test_installer.swift:98-129 | The harness loop issues the plans of all remaining entries and never ends the run |
| `HarnessProofs.DownloadTestShape` | test_installer.swift:80-159 | With a usable list, the download test issues the plans of all entries, nothing ends it early, and it closes with the summary log line and a directory listing |
| `HarnessProofs.EveryEntryAttempted` | test_installer.swift:98-129 | Every entry is downloaded, in list order, whatever happened to the earlier ones |
| `HarnessProofs.HarnessExtractionRules` | test_installer.swift:105-125 | An archive is extracted exactly when its download succeeded and the file is present. It is removed exactly when that extraction exited with 0. Removals and extractions directly follow their predecessors. No path string of a name without `.zip` is ever extracted or removed |
| `HarnessProofs.MissingAndRemovalReported` | test_installer.swift:108-125 | The missing-file line is logged for a path exactly when an entry's download succeeded and its file is absent there. The zip removal is reported for a name exactly when an entry with that name is a present archive whose extraction exited with 0. Neither is logged without a usable list |
| `HarnessProofs.RemovalResultIgnored` | test_installer.swift:119-121 | The `try?` removal result is never consulted: both tests are the same whatever it is, so the removal is reported whether or not it worked |
| `HarnessProofs.DownloadTestWithoutLoop` | test_installer.swift:84-158 | A failed fetch or an empty list issues no transfer, the empty list being logged last; an overflowing size sum traps |
| `HarnessProofs.TotalLogged` | test_installer.swift:94-95 | The total logged before the loop is the sum of the declared sizes |
| `HarnessProofs.ZipEntriesExactly` | test_installer.swift:200 | The selected names are exactly the listed names ending in `.zip`, each kept as often as it is listed; a listing of archives only is kept whole and in order |
| `HarnessProofs.ZipEntriesAppend` | test_installer.swift:200 | The selection keeps listing order: selecting from two listings one after the other gives the two selections one after the other |
| `HarnessProofs.UnzipTestTries` | test_installer.swift:195-230 | The extraction test tries each selected archive exactly once, in listing order, and removes nothing. It extracts nothing when the listing is unavailable or holds no archive |
| `HarnessProofs.UnzipCommandsLogged` | test_installer.swift:300-308 | Every `unzip` run, in either test, is directly preceded by the log line of its exact argument vector |
| `Contrast.SameProbesSameVerdicts` | test_installer.swift:27-53 | The installer's probes are the harness's, cut off at the first failed gate. The harness reports all three prerequisites met exactly when the installer fetches the list |
| `Contrast.PresenceCheckIrrelevant` | test_installer.swift:108-110 | When every downloaded file is present, the harness's presence check changes no plan |
| `Contrast.SameTransfersOnSuccess` | test_installer.swift:98-129 | When the installation succeeds and every file is present, the harness issues exactly the installer's transfers |
| `Contrast.InstallerDownloadsPrefix` | test_installer.swift:98-129 | The installer's downloads are a prefix of the harness's. They are strictly shorter exactly when an entry before the last fails |

## Left out

- The AppKit window and labels, and the hand-off of every update to the main queue. Each
  update is an event of the trace, in the order the worker thread issues it.
- `print` debug output and the log file (`appendLineToURL`, `Data.append`). A log call is a
  `Message` event; the date prefix and level are not modelled.
- Message wording, `formatFileSize` (`ByteCountFormatter`) and `DateFormatter`. These are
  foreign formatting; messages carry their raw values instead, such as the byte count in
  `InsufficientSpace`.
- The displayed `availableSpace/1024/1024` "GB" value. It is formatting, and the model keeps
  the byte count.
- The 3-second delayed exit after success. It is collapsed into `Completed`; `NSApp.terminate`
  is `Terminate`.
- The network, file system and subprocesses. They are oracle outcomes in `Env`: downloads are
  keyed by entry name; presence and extraction results by path.
- The parent-directory creation inside `downloadFile`. Its result is discarded, so it is part
  of the `Download` request.
- `JSONDecoder`. The fetch result is either a decoded `FileList` or one of two errors. Sizes are
  unbounded integers, and the decoder's rejection of values outside `Int64` is not modelled.
- The `URL(string:)!` force-unwraps of the file URL (InstallerApp/main.swift:282,
  test_installer.swift:288). The server-supplied file name is interpolated unescaped. On
  some Foundation versions (macOS before 14), a name with a space or a non-ASCII character
  makes `URL(string:)` return nil, and the unwrap crashes the process in the middle of the
  loop. Whether it crashes depends on the name and on the OS version, which the model does
  not know. Every download request is taken to be well-formed, so no entry name causes a
  crash. The list URL (main.swift:276) is built from the fixed server address only.
- InstallerTheorems.RunEnds: "`Trap` exactly when the size sum overflows" and "`Completed`
  exactly on success" hold only for names that `URL(string:)` accepts; the crash above is a
  second way to stop that the model does not have.
- InstallerProofs.InstallEnds, InstallerProofs.LoopEnds: the same restriction to names that
  `URL(string:)` accepts.
- HarnessProofs.LoopFacts: "never ends the run" holds only for names that `URL(string:)`
  accepts; the force-unwrap is outside the `do`/`catch`'s reach because it traps rather
  than throws.
- HarnessProofs.DownloadTestShape, HarnessProofs.EveryEntryAttempted: the same restriction.
- Transfer.DownloadURLInjective, Transfer.DestinationInjective, InstallerTheorems.ExtractionRules,
  HarnessProofs.HarnessExtractionRules: paths and URLs are compared as strings. The model
  does not know that two path strings can name one file, as "a.ZIP" and "a.zip" do on a
  case-insensitive volume (the default on macOS). There, the successful extraction of
  "a.zip" and its removal (InstallerApp/main.swift:190-193) delete the file the non-archive
  "a.ZIP" was written to. Nor does it know that `URL(string:)` on macOS 14 and later
  percent-encodes, so "a b" and "a%20b" request the same URL. `Env` keys presence and
  extraction results by path string, so such aliasing is outside the model.
- Manifest.HasSuffix: `hasSuffix` is compared on code points, not on Swift's grapheme
  clusters. A name whose ".zip" begins inside a cluster, such as "x\u{0600}.zip" (U+0600
  is a prepended mark that joins the following "."), counts as an archive in the model but
  not in Swift. `Manifest.IsArchive` and every plan that depends on it inherit this.
- `Double` rounding of the progress value. The model uses the exact rational
  `40 + i / n * 60`.
- `testServerConnection` and `createTestZip`. They only log the list or shell out to `zip`,
  and no other test depends on them.
- The harness's top-level sequence of tests. Each test is modelled on its own, because they
  share nothing but the host.
- The per-file logging of directory listings in `testFileDownload` and `testUnzip`. The
  listing request is an event; what it returns after the loop or after an extraction is not
  modelled.
- The Python server. It serves the directory listing, the files, and a `/status` tail of its
  own log; neither client calls `/status`.

## Findings

| source | as written | input that shows it | evidently intended | confidence | as-written member | corrected member |
|---|---|---|---|---|---|---|
| InstallerApp/main.swift:126-132 | The free byte count is compared with `20 * 1024 * 1024`, which is 20 MiB. The harness has the same constant at test_installer.swift:38 | 1 GiB free (`Some(1073741824)`) passes the space gate, although the program requires 20 GB | 20 GB, that is `20 * 1024 * 1024 * 1024` bytes, as the comment "20 GB" and the message "20GB requis" announce | high; not executed | `InstallerTheorems.ThresholdAsWritten` | `InstallerTheorems.IntendedThreshold` |

`Environment.IntendedConfig` carries the corrected threshold. Every theorem about
`Installer.Run` is stated for an arbitrary configuration, so each holds for
`IntendedConfig` as well.

=== FILE: contrast.dfy ===
/**
  The installer against the test harness on the same configuration and host: the harness
  runs the same probes and gives the same verdicts, downloads a superset of what the
  installer downloads, and issues exactly the installer's transfers when nothing fails.
 */
module Contrast {
  import opened Wrappers
  import opened Manifest
  import opened Transfer
  import opened Tools
  import opened Trace
  import opened Environment
  import opened Plans
  import Installer
  import opened InstallerProofs
  import opened InstallerTheorems
  import Harness
  import opened HarnessProofs

  /**
    The installer's probes are the harness's, in the same order, cut off at the first failed
    gate; and the harness reports all three prerequisites met exactly when the installer goes
    on to fetch the file list.
   */
  lemma SameProbesSameVerdicts(cfg: Config, env: Env)
    ensures var installer := IoOf(Installer.Run(cfg, env));
      var harness := IoOf(Harness.TestPrerequisites(cfg, env));
      var reached := if |GateIo(cfg, env)| < 3 then |GateIo(cfg, env)| else 3;
      && |harness| == 3
      && reached <= |installer|
      && installer[..reached] == harness[..reached]
      && (FailedGate(cfg, env).Some? ==> installer == harness[..reached])
    ensures var t := Harness.TestPrerequisites(cfg, env);
      (&& Message(Harness.WritableOk) in t
       && Message(Harness.SpaceOk) in t
       && Message(Harness.UnzipInstalled) in t)
      <==> FetchFileList(ManifestURL(cfg.server)) in IoOf(Installer.Run(cfg, env))
  {
    PrerequisiteGates(cfg, env);
    PrerequisitesReported(cfg, env);
  }

  /** With every downloaded file present, checking for presence changes no plan. */
  lemma {:induction false} PresenceCheckIrrelevant(cfg: Config, env: Env, files: seq<FileInfo>)
    requires forall j :: 0 <= j < |files| ==> env.existsAfterDownload(Destination(cfg.dir, files[j].name))
    ensures PlannedTransfers(cfg, env, files, true) == PlannedTransfers(cfg, env, files, false)
  {
    if |files| > 0 {
      PresenceCheckIrrelevant(cfg, env, files[1..]);
    }
  }

  /** When the installation succeeds and every downloaded file is present, the harness's
      download test issues exactly the installer's transfers. */
  lemma SameTransfersOnSuccess(cfg: Config, env: Env)
    requires Installer.Succeeds(cfg, env)
    requires forall j :: 0 <= j < |env.fileList.value.files| ==>
               env.existsAfterDownload(Destination(cfg.dir, env.fileList.value.files[j].name))
    ensures TransfersOf(Installer.Run(cfg, env)) == TransfersOf(Harness.TestFileDownload(cfg, env))
  {
    var files := env.fileList.value.files;
    RunTransfers(cfg, env);
    SucceedsIffNoFailure(cfg, env);
    assert files[..Attempted(cfg, env, files)] == files;
    DownloadTestShape(cfg, env);
    PresenceCheckIrrelevant(cfg, env, files);
  }

  /** The installer's downloads are a prefix of the harness's: the harness goes on past the
      first failing entry, to the end of the list. */
  lemma InstallerDownloadsPrefix(cfg: Config, env: Env)
    requires Installer.ReachesTransfers(cfg, env)
    ensures var installer := DownloadsIn(TransfersOf(Installer.Run(cfg, env)));
      var harness := DownloadsIn(TransfersOf(Harness.TestFileDownload(cfg, env)));
      && |installer| <= |harness| == |env.fileList.value.files|
      && installer == harness[..|installer|]
      && (|installer| < |harness| <==> !Installer.Succeeds(cfg, env) && FirstFailure(cfg, env, env.fileList.value.files) < |harness| - 1)
  {
    var files := env.fileList.value.files;
    AbortOnFirstFailure(cfg, env);
    EveryEntryAttempted(cfg, env);
    SucceedsIffNoFailure(cfg, env);
  }
}

=== FILE: environment.dfy ===
/**
  The configuration of a run and the oracle that stands in for the host: every probe,
  network read, file write and subprocess is replaced by a fixed outcome, so a run is a
  deterministic function of the configuration and the oracle.
 */
module Environment {
  import opened Wrappers
  import opened Manifest
  import opened Transfer
  import opened Tools
  import opened Trace

  /** Server address, working directory and free-space threshold of a run. */
  datatype Config = Config(server: string, dir: string, requiredSpace: int)

  /** The literal `20 * 1024 * 1024` both programs compare the free byte count against. */
  const RequiredSpace: int := 20 * 1024 * 1024

  const InstallerConfig: Config := Config("http://172.17.19.26:5001", "/var/tmp", RequiredSpace)

  /** The threshold the surrounding comment and messages announce: 20 GB, as a byte count. */
  const IntendedRequiredSpace: int := 20 * 1024 * 1024 * 1024

  /** The installer's configuration with the announced threshold. */
  const IntendedConfig: Config := InstallerConfig.(requiredSpace := IntendedRequiredSpace)

  /**
    The outcomes the host would produce. Downloads are keyed by entry name, extractions and
    existence checks by path. `removes` and `createsDirectory` are outcomes both programs
    discard (`try?`); they are here so that their irrelevance can be stated.
   */
  datatype Env = Env(
    writable: bool,
    freeSpace: Option<int>,
    whichUnzip: ProcessOutcome,
    fileList: Result<FileList, FetchError>,
    download: string -> Outcome<DownloadError>,
    existsAfterDownload: string -> bool,
    unzip: string -> ProcessOutcome,
    removes: string -> bool,
    createsDirectory: bool,
    listing: Option<seq<string>>)

  /** `getAvailableDiskSpace`: the free byte count, or 0 when the attributes are missing. */
  function AvailableDiskSpace(query: Option<int>): int {
    match query
    case None => 0
    case Some(bytes) => bytes
  }

  /** The space requirement as the harness phrases it. */
  predicate SpaceSufficient(available: int, required: int) {
    available >= required
  }

  /** All three prerequisites hold. */
  predicate PrerequisitesPass(cfg: Config, env: Env) {
    && env.writable
    && SpaceSufficient(AvailableDiskSpace(env.freeSpace), cfg.requiredSpace)
    && IsUnzipInstalled(env.whichUnzip)
  }

  /** Why processing one entry failed. */
  datatype FileError = DownloadFailed(downloadError: DownloadError) | UnzipFailed(unzipError: UnzipError)

  /** Why entry `name` fails: the download error if the download fails, else the extraction
      error. */
  function EntryError(cfg: Config, env: Env, name: string): (e: FileError)
    requires !EntrySucceeds(cfg, env, name)
    ensures e.DownloadFailed? <==> env.download(name).Fail?
    ensures e.DownloadFailed? ==> env.download(name) == Fail(e.downloadError)
    ensures e.UnzipFailed? ==> IsArchive(name) && env.unzip(Destination(cfg.dir, name)) != Exited(0)
    ensures e.UnzipFailed? ==> UnzipResult(env.unzip(Destination(cfg.dir, name))) == Fail(e.unzipError)
  {
    match env.download(name)
    case Fail(d) => DownloadFailed(d)
    case Pass => UnzipFailed(UnzipResult(env.unzip(Destination(cfg.dir, name))).error)
  }

  /** The entry downloads and, if it is an archive, extracts. */
  predicate EntrySucceeds(cfg: Config, env: Env, name: string) {
    && env.download(name).Pass?
    && (IsArchive(name) ==> env.unzip(Destination(cfg.dir, name)) == Exited(0))
  }

  /** The index of the first entry that does not succeed, or `|files|` if none. */
  function FirstFailure(cfg: Config, env: Env, files: seq<FileInfo>): (k: nat)
    ensures k <= |files|
    ensures forall j :: 0 <= j < k ==> EntrySucceeds(cfg, env, files[j].name)
    ensures k < |files| ==> !EntrySucceeds(cfg, env, files[k].name)
  {
    if |files| == 0 then 0
    else if !EntrySucceeds(cfg, env, files[0].name) then 0
    else 1 + FirstFailure(cfg, env, files[1..])
  }

  /** How many entries an abort-on-first-failure loop attempts. */
  function Attempted(cfg: Config, env: Env, files: seq<FileInfo>): nat {
    var k := FirstFailure(cfg, env, files);
    if k < |files| then k + 1 else |files|
  }

  /** The download request for an entry. */
  function DownloadOf(cfg: Config, name: string): IoAction {
    Download(DownloadURL(cfg.server, name), Destination(cfg.dir, name))
  }

  /** The entry arrived: its download succeeded and, when the program checks for it, the
      downloaded file is present. */
  predicate Arrived(cfg: Config, env: Env, name: string, checkPresence: bool) {
    && env.download(name).Pass?
    && (checkPresence ==> env.existsAfterDownload(Destination(cfg.dir, name)))
  }

  /**
    The transfer requests processing one entry issues: the download; then, for an archive
    that arrived, its extraction; then, if that exited with 0, its removal.
   */
  function EntryTransfers(cfg: Config, env: Env, name: string, checkPresence: bool): seq<IoAction> {
    var path := Destination(cfg.dir, name);
    [DownloadOf(cfg, name)]
    + (if !Arrived(cfg, env, name, checkPresence) || !IsArchive(name) then []
       else [Unzip(path, cfg.dir)] + (if env.unzip(path) == Exited(0) then [Remove(path)] else []))
  }

  /** The transfer requests of processing `files` one after another without stopping. */
  function PlannedTransfers(cfg: Config, env: Env, files: seq<FileInfo>, checkPresence: bool): seq<IoAction> {
    if |files| == 0 then []
    else EntryTransfers(cfg, env, files[0].name, checkPresence) + PlannedTransfers(cfg, env, files[1..], checkPresence)
  }

  /** The list arrived, is non-empty, and its total size does not overflow. */
  predicate ListUsable(env: Env) {
    && env.fileList.Success?
    && |env.fileList.value.files| > 0
    && CheckedPrefixSize(env.fileList.value.files, |env.fileList.value.files|).Some?
  }

  /** The list arrived and is non-empty, but summing its sizes traps. */
  predicate ListOverflows(env: Env) {
    && env.fileList.Success?
    && |env.fileList.value.files| > 0
    && CheckedPrefixSize(env.fileList.value.files, |env.fileList.value.files|).None?
  }
}

=== FILE: harness.dfy ===
/**
  The command-line test harness: the same probes and transfers as the installer, but every
  outcome is only logged. Prerequisite failures do not stop it, a failing entry is skipped
  and the loop goes on, and the downloaded file is checked for presence before extraction.
  Each `log` call is a `Message` event.
 */
module Harness {
  import opened Wrappers
  import opened Manifest
  import opened Transfer
  import opened Tools
  import opened Trace
  import opened Environment

  /** The log lines the harness writes. */
  datatype Note =
    | WritableOk
    | WritableNot
    | AvailableSpace(bytes: int)
    | SpaceOk
    | SpaceLow
    | UnzipInstalled
    | UnzipNotInstalled
    | FileListFailed(cause: FetchError)
    | FilesFound(count: nat)
    | NoFiles
    | TotalToDownload(total: int)
    | Attempting(position: nat, count: nat, name: string, size: int)
    | Downloaded(name: string)
    | MissingAfterDownload(path: string)
    | Decompressing(name: string)
    | UnzipCommand(arguments: seq<string>)
    | Decompressed
    | ZipRemoved(name: string)
    | ProcessingFailed(name: string, error: FileError)
    | AllDownloadsDone
    | DirectoryUnavailable
    | NoZipFound(dir: string)
    | ZipsFound(count: nat)
    | TryingUnzip(name: string)
    | UnzipSucceeded(name: string)
    | UnzipFailedFor(name: string, failure: UnzipError)

  type HarnessEvent = Event<Note>

  /** `testPrerequisites`: the three probes, each logged as passed or failed; none stops it. */
  function TestPrerequisites(cfg: Config, env: Env): seq<HarnessEvent> {
    var available := AvailableDiskSpace(env.freeSpace);
    [ Io(ProbeWritable(cfg.dir)),
      Message(if env.writable then WritableOk else WritableNot),
      Io(ProbeFreeSpace(cfg.dir)),
      Message(AvailableSpace(available)),
      Message(if SpaceSufficient(available, cfg.requiredSpace) then SpaceOk else SpaceLow),
      Io(LookupUnzip),
      Message(if IsUnzipInstalled(env.whichUnzip) then UnzipInstalled else UnzipNotInstalled) ]
  }

  /** The harness's `unzipFile`: the command line is logged before the process is run. */
  function UnzipCall(archive: string, dir: string): seq<HarnessEvent> {
    [Message(UnzipCommand(UnzipArguments(archive, dir))), Io(Unzip(archive, dir))]
  }

  /** Entry `i` of the download test; no outcome ends the loop. */
  function EntryEvents(cfg: Config, env: Env, files: seq<FileInfo>, i: nat): seq<HarnessEvent>
    requires i < |files|
  {
    var file := files[i];
    [ Message(Attempting(i + 1, |files|, file.name, file.size)),
      Io(Download(DownloadURL(cfg.server, file.name), Destination(cfg.dir, file.name))) ]
    + EntryOutcome(cfg, env, file.name)
  }

  /** What follows an entry's download request: the error, or the presence check and, for a
      present archive, its extraction. */
  function EntryOutcome(cfg: Config, env: Env, name: string): seq<HarnessEvent> {
    var path := Destination(cfg.dir, name);
    match env.download(name)
    case Fail(e) => [Message(ProcessingFailed(name, DownloadFailed(e)))]
    case Pass =>
      [Io(CheckExists(path))]
      + if !env.existsAfterDownload(path) then [Message(MissingAfterDownload(path))]
        else [Message(Downloaded(name))] + if !IsArchive(name) then [] else Extraction(cfg, env, name)
  }

  /** A present archive: the extraction, then on success the removal. */
  function Extraction(cfg: Config, env: Env, name: string): seq<HarnessEvent> {
    var path := Destination(cfg.dir, name);
    [Message(Decompressing(name))] + UnzipCall(path, cfg.dir)
    + match UnzipResult(env.unzip(path))
      case Fail(e) => [Message(ProcessingFailed(name, UnzipFailed(e)))]
      case Pass => [Message(Decompressed), Io(Remove(path)), Message(ZipRemoved(name))]
  }

  /** The download loop from entry `i` on: every entry, whatever the earlier ones did. */
  function LoopFrom(cfg: Config, env: Env, files: seq<FileInfo>, i: nat): seq<HarnessEvent>
    requires i <= |files|
    decreases |files| - i
  {
    if i == |files| then [] else EntryEvents(cfg, env, files, i) + LoopFrom(cfg, env, files, i + 1)
  }

  /** `testFileDownload`: fetch and count the list, stop on an empty one, sum the sizes (a
      trap on overflow), run the loop, then list the working directory. */
  function TestFileDownload(cfg: Config, env: Env): seq<HarnessEvent> {
    [Io(FetchFileList(ManifestURL(cfg.server)))]
    + match env.fileList
      case Failure(e) => [Message(FileListFailed(e))]
      case Success(list) =>
        [Message(FilesFound(|list.files|))]
        + if |list.files| == 0 then [Message(NoFiles)]
          else
            match CheckedPrefixSize(list.files, |list.files|)
            case None => [Trap]
            case Some(total) =>
              [Message(TotalToDownload(total))]
              + LoopFrom(cfg, env, list.files, 0)
              + [Message(AllDownloadsDone), Io(ListDirectory(cfg.dir))]
  }

  /** The names in a directory listing that end in ".zip", in listing order. */
  function ZipEntries(names: seq<string>): (r: seq<string>)
    ensures |r| <= |names|
  {
    if |names| == 0 then []
    else (if IsArchive(names[0]) then [names[0]] else []) + ZipEntries(names[1..])
  }

  /** One archive of the extraction test: on success it is reported and the directory
      listed again. */
  function ExtractEvents(cfg: Config, env: Env, name: string): seq<HarnessEvent> {
    var path := Destination(cfg.dir, name);
    [Message(TryingUnzip(name))] + UnzipCall(path, cfg.dir)
    + match UnzipResult(env.unzip(path))
      case Fail(e) => [Message(UnzipFailedFor(name, e))]
      case Pass => [Message(UnzipSucceeded(name)), Io(ListDirectory(cfg.dir))]
  }

  function ExtractAll(cfg: Config, env: Env, zips: seq<string>): seq<HarnessEvent> {
    if |zips| == 0 then [] else ExtractEvents(cfg, env, zips[0]) + ExtractAll(cfg, env, zips[1..])
  }

  /** `testUnzip`: list the working directory and try to extract every archive in it. */
  function TestUnzip(cfg: Config, env: Env): seq<HarnessEvent> {
    [Io(ListDirectory(cfg.dir))]
    + match env.listing
      case None => [Message(DirectoryUnavailable)]
      case Some(names) =>
        var zips := ZipEntries(names);
        if |zips| == 0 then [Message(NoZipFound(cfg.dir))]
        else [Message(ZipsFound(|zips|))] + ExtractAll(cfg, env, zips)
  }
}

=== FILE: harness_proofs.dfy ===
/**
  What the test harness promises: every prerequisite is probed and reported, every entry of
  the list is attempted in order whatever happened to the earlier ones, an archive is
  extracted only when its download succeeded and the file is present, and the extraction
  test tries exactly the archives of the directory listing.
 */
module HarnessProofs {
  import opened Wrappers
  import opened Manifest
  import opened Transfer
  import opened Tools
  import opened Trace
  import opened Environment
  import opened Plans
  import opened Harness

  /** All three probes run, in order, whatever their outcomes; each verdict logged is the
      outcome of its probe. */
  lemma PrerequisitesReported(cfg: Config, env: Env)
    ensures var t := TestPrerequisites(cfg, env);
      && IoOf(t) == [ProbeWritable(cfg.dir), ProbeFreeSpace(cfg.dir), LookupUnzip]
      && (Message(WritableOk) in t <==> env.writable)
      && (Message(SpaceOk) in t <==> AvailableDiskSpace(env.freeSpace) >= cfg.requiredSpace)
      && (Message(UnzipInstalled) in t <==> IsUnzipInstalled(env.whichUnzip))
      && Unended(t)
  {
    PrerequisiteProbes(cfg, env);
  }

  /** The probes of `testPrerequisites`, in order. */
  lemma PrerequisiteProbes(cfg: Config, env: Env)
    ensures IoOf(TestPrerequisites(cfg, env)) == [ProbeWritable(cfg.dir), ProbeFreeSpace(cfg.dir), LookupUnzip]
  {
    var t := TestPrerequisites(cfg, env);
    IoOfSingle(t[..2], 0);
    IoOfSingle(t[2..5], 0);
    IoOfSingle(t[5..], 0);
    IoOfAppend(t[..2], t[2..5]);
    IoOfAppend(t[..2] + t[2..5], t[5..]);
    assert t == t[..2] + t[2..5] + t[5..];
  }

  /** A present archive's extraction: the unzip request, then the removal exactly when the
      tool exited with 0; nothing in it ends the run. */
  lemma ExtractionFacts(cfg: Config, env: Env, name: string)
    ensures var x := Extraction(cfg, env, name);
      var path := Destination(cfg.dir, name);
      && Unended(x)
      && TransfersOf(x) == [Unzip(path, cfg.dir)] + (if env.unzip(path) == Exited(0) then [Remove(path)] else [])
  {
    var x := Extraction(cfg, env, name);
    var path := Destination(cfg.dir, name);
    match UnzipResult(env.unzip(path))
    case Fail(e) => {
      TransfersOfSingle(x, 2);
    }
    case Pass => {
      TransfersOfSingle(x[..3], 2);
      TransfersOfSingle(x[3..], 1);
      TransfersOfAppend(x[..3], x[3..]);
      assert x == x[..3] + x[3..];
    }
  }

  /** What follows an entry's download: its planned transfers after the download, and no
      terminal event. */
  lemma EntryOutcomeFacts(cfg: Config, env: Env, name: string)
    ensures var o := EntryOutcome(cfg, env, name);
      && Unended(o)
      && TransfersOf(o) == EntryTransfers(cfg, env, name, true)[1..]
  {
    var path := Destination(cfg.dir, name);
    if env.download(name).Fail? || !env.existsAfterDownload(path) || !IsArchive(name) {
      TransfersOfNone(EntryOutcome(cfg, env, name));
    } else {
      OutcomeWithExtraction(cfg, env, name);
    }
  }

  /** A present archive: the presence check and its log line, then the extraction. */
  lemma OutcomeWithExtraction(cfg: Config, env: Env, name: string)
    requires env.download(name).Pass? && env.existsAfterDownload(Destination(cfg.dir, name))
    requires IsArchive(name)
    ensures var o := EntryOutcome(cfg, env, name);
      && Unended(o)
      && TransfersOf(o) == EntryTransfers(cfg, env, name, true)[1..]
  {
    var o := EntryOutcome(cfg, env, name);
    var x := Extraction(cfg, env, name);
    var check: seq<HarnessEvent> := [Io(CheckExists(Destination(cfg.dir, name))), Message(Downloaded(name))];
    ExtractionFacts(cfg, env, name);
    assert o == check + x;
    TransfersOfNone(check);
    TransfersOfAppend(check, x);
    UnendedAppend(check, x);
  }

  /**
    One entry of the download test: its transfers are the entry's plan with the presence
    check, and none of its events ends the run.
   */
  lemma EntryEventsFacts(cfg: Config, env: Env, files: seq<FileInfo>, i: nat)
    requires i < |files|
    ensures var ev := EntryEvents(cfg, env, files, i);
      && Unended(ev)
      && TransfersOf(ev) == EntryTransfers(cfg, env, files[i].name, true)
  {
    var name := files[i].name;
    var ev := EntryEvents(cfg, env, files, i);
    var o := EntryOutcome(cfg, env, name);
    assert ev == ev[..2] + o;
    EntryOutcomeFacts(cfg, env, name);
    TransfersOfSingle(ev[..2], 1);
    TransfersOfAppend(ev[..2], o);
    var planned := EntryTransfers(cfg, env, name, true);
    assert planned == [DownloadOf(cfg, name)] + planned[1..];
    UnendedAppend(ev[..2], o);
  }

  /** The loop from entry `i` on issues the plans of all remaining entries and never ends
      the run. */
  lemma {:induction false} LoopFacts(cfg: Config, env: Env, files: seq<FileInfo>, i: nat)
    requires i <= |files|
    ensures var t := LoopFrom(cfg, env, files, i);
      && Unended(t)
      && TransfersOf(t) == PlannedTransfers(cfg, env, files[i..], true)
    decreases |files| - i
  {
    if i < |files| {
      LoopFacts(cfg, env, files, i + 1);
      LoopStep(cfg, env, files, i);
    }
  }

  /** One entry in front of the rest of the loop adds its plan and no terminal event. */
  lemma LoopStep(cfg: Config, env: Env, files: seq<FileInfo>, i: nat)
    requires i < |files|
    requires var rest := LoopFrom(cfg, env, files, i + 1);
      Unended(rest) && TransfersOf(rest) == PlannedTransfers(cfg, env, files[i + 1..], true)
    ensures var t := LoopFrom(cfg, env, files, i);
      && Unended(t)
      && TransfersOf(t) == PlannedTransfers(cfg, env, files[i..], true)
  {
    var ev := EntryEvents(cfg, env, files, i);
    var rest := LoopFrom(cfg, env, files, i + 1);
    EntryEventsFacts(cfg, env, files, i);
    TransfersOfAppend(ev, rest);
    UnendedAppend(ev, rest);
    assert files[i..][0] == files[i];
    assert files[i..][1..] == files[i + 1..];
  }

  /**
    The download test with a usable list: after the fetch and the two counts, the loop over
    every entry, then the closing log line and the directory listing. Its transfers are the
    plans of all entries, and nothing ends it early.
   */
  lemma DownloadTestShape(cfg: Config, env: Env)
    requires ListUsable(env)
    ensures var t := TestFileDownload(cfg, env);
      var files := env.fileList.value.files;
      && TransfersOf(t) == PlannedTransfers(cfg, env, files, true)
      && Unended(t)
      && t[|t| - 2..] == [Message(AllDownloadsDone), Io(ListDirectory(cfg.dir))]
  {
    var t := TestFileDownload(cfg, env);
    var files := env.fileList.value.files;
    var loop := LoopFrom(cfg, env, files, 0);
    var head: seq<HarnessEvent> :=
      [ Io(FetchFileList(ManifestURL(cfg.server))), Message(FilesFound(|files|)),
        Message(TotalToDownload(CheckedPrefixSize(files, |files|).value)) ];
    var tail: seq<HarnessEvent> := [Message(AllDownloadsDone), Io(ListDirectory(cfg.dir))];
    DownloadTestParts(cfg, env);
    LoopFacts(cfg, env, files, 0);
    assert files[0..] == files;
    TransfersOfNone(head);
    TransfersOfNone(tail);
    Framed(head, loop, tail);
  }

  /** A loop framed by transfer-free, unended events: the framing adds no transfer and no
      ending, and the closing events come last. */
  lemma Framed(head: seq<HarnessEvent>, loop: seq<HarnessEvent>, tail: seq<HarnessEvent>)
    requires TransfersOf(head) == [] && TransfersOf(tail) == []
    requires Unended(head) && Unended(loop) && Unended(tail)
    ensures var t := head + loop + tail;
      && TransfersOf(t) == TransfersOf(loop)
      && Unended(t)
      && t[|t| - |tail|..] == tail
  {
    TransfersOfAppend(head, loop);
    TransfersOfAppend(head + loop, tail);
    UnendedAppend(head, loop);
    UnendedAppend(head + loop, tail);
  }

  /** The download test with a usable list: the fetch and the two counts, the loop, and the
      closing pair. */
  lemma DownloadTestParts(cfg: Config, env: Env)
    requires ListUsable(env)
    ensures var files := env.fileList.value.files;
      TestFileDownload(cfg, env)
      == [ Io(FetchFileList(ManifestURL(cfg.server))), Message(FilesFound(|files|)),
           Message(TotalToDownload(CheckedPrefixSize(files, |files|).value)) ]
         + LoopFrom(cfg, env, files, 0)
         + [Message(AllDownloadsDone), Io(ListDirectory(cfg.dir))]
  {
    var files := env.fileList.value.files;
    var total := CheckedPrefixSize(files, |files|).value;
    var loop := LoopFrom(cfg, env, files, 0);
    var tail: seq<HarnessEvent> := [Message(AllDownloadsDone), Io(ListDirectory(cfg.dir))];
    var inner := [Message(TotalToDownload(total))] + loop + tail;
    assert TestFileDownload(cfg, env)
        == [Io(FetchFileList(ManifestURL(cfg.server)))] + ([Message(FilesFound(|files|))] + inner);
    assert [Io(FetchFileList(ManifestURL(cfg.server)))] + ([Message(FilesFound(|files|))] + inner)
        == [Io(FetchFileList(ManifestURL(cfg.server))), Message(FilesFound(|files|)), Message(TotalToDownload(total))]
           + loop + tail;
  }

  /** Skip and continue: with a usable list, the download test downloads every entry, in
      list order, whatever the download, presence check or extraction of the earlier ones
      did. */
  lemma EveryEntryAttempted(cfg: Config, env: Env)
    requires ListUsable(env)
    ensures var files := env.fileList.value.files;
      var d := DownloadsIn(TransfersOf(TestFileDownload(cfg, env)));
      && |d| == |files|
      && forall j :: 0 <= j < |files| ==> d[j] == DownloadOf(cfg, files[j].name)
  {
    DownloadTestShape(cfg, env);
    PlannedDownloads(cfg, env, env.fileList.value.files, true);
  }

  /**
    Extraction in the download test: an archive is extracted exactly when its download
    succeeded and the file is present afterwards, it is removed exactly when that extraction
    exited with 0, each removal directly follows its extraction and each extraction its
    download, and a name without the ".zip" suffix is never extracted or removed.
   */
  lemma HarnessExtractionRules(cfg: Config, env: Env)
    requires ListUsable(env)
    ensures var files := env.fileList.value.files;
      var tr := TransfersOf(TestFileDownload(cfg, env));
      && UnzipsExactly(cfg, env, files, tr, true)
      && RemovesExactly(cfg, env, files, tr, true)
      && ExtractionOrdered(cfg, tr)
      && (forall j :: 0 <= j < |files| && !IsArchive(files[j].name) ==>
            && Unzip(Destination(cfg.dir, files[j].name), cfg.dir) !in tr
            && Remove(Destination(cfg.dir, files[j].name)) !in tr)
  {
    var files := env.fileList.value.files;
    DownloadTestShape(cfg, env);
    PlannedUnzips(cfg, env, files, true);
    PlannedRemoves(cfg, env, files, true);
    PlannedOrdered(cfg, env, files, true);
    forall j | 0 <= j < |files| && !IsArchive(files[j].name)
      ensures Unzip(Destination(cfg.dir, files[j].name), cfg.dir) !in TransfersOf(TestFileDownload(cfg, env))
      ensures Remove(Destination(cfg.dir, files[j].name)) !in TransfersOf(TestFileDownload(cfg, env))
    {
      NonArchivesUntouched(cfg, env, files, files[j].name, true);
    }
  }

  /** A failed fetch or an empty list stops the download test before any transfer; an
      overflowing sum traps. */
  lemma DownloadTestWithoutLoop(cfg: Config, env: Env)
    requires !ListUsable(env)
    ensures var t := TestFileDownload(cfg, env);
      && TransfersOf(t) == []
      && IoOf(t) == [FetchFileList(ManifestURL(cfg.server))]
      && (t[|t| - 1] == Trap <==>
            env.fileList.Success? && |env.fileList.value.files| > 0
            && CheckedPrefixSize(env.fileList.value.files, |env.fileList.value.files|).None?)
      && (env.fileList.Success? && |env.fileList.value.files| == 0 ==> t[|t| - 1] == Message(NoFiles))
  {
    var t := TestFileDownload(cfg, env);
    TransfersOfNone(t);
    IoOfSingle(t, 0);
  }

  /** The archive names of a listing: exactly the listed names ending in ".zip", each as
      often as it is listed; a listing of archives only is kept whole, in its order. */
  lemma {:induction false} ZipEntriesExactly(names: seq<string>)
    ensures forall x :: x in ZipEntries(names) <==> x in names && IsArchive(x)
    ensures forall x :: multiset(ZipEntries(names))[x] == if IsArchive(x) then multiset(names)[x] else 0
    ensures (forall j :: 0 <= j < |names| ==> IsArchive(names[j])) ==> ZipEntries(names) == names
  {
    if |names| > 0 {
      ZipEntriesExactly(names[1..]);
      assert names == [names[0]] + names[1..];
    }
  }

  /** The selection keeps listing order: it distributes over concatenation. */
  lemma {:induction false} ZipEntriesAppend(a: seq<string>, b: seq<string>)
    ensures ZipEntries(a + b) == ZipEntries(a) + ZipEntries(b)
  {
    if |a| > 0 {
      assert (a + b)[1..] == a[1..] + b;
      ZipEntriesAppend(a[1..], b);
    } else {
      assert a + b == b;
    }
  }

  /** The extraction requests of trying `zips` in turn: one per archive, in order, each into
      the working directory. */
  lemma {:induction false} ExtractAllTransfers(cfg: Config, env: Env, zips: seq<string>)
    ensures var r := TransfersOf(ExtractAll(cfg, env, zips));
      && |r| == |zips|
      && forall j :: 0 <= j < |zips| ==> r[j] == Unzip(Destination(cfg.dir, zips[j]), cfg.dir)
  {
    if |zips| > 0 {
      var ev := ExtractEvents(cfg, env, zips[0]);
      var rest := ExtractAll(cfg, env, zips[1..]);
      TransfersOfSingle(ev, 2);
      ExtractAllTransfers(cfg, env, zips[1..]);
      TransfersOfAppend(ev, rest);
    }
  }

  /**
    The extraction test tries each archive of the listing exactly once, in listing order,
    and removes nothing; with no listing or no archive in it, it extracts nothing.
   */
  lemma UnzipTestTries(cfg: Config, env: Env)
    ensures var r := TransfersOf(TestUnzip(cfg, env));
      && (env.listing.None? ==> r == [])
      && (env.listing.Some? ==>
            var zips := ZipEntries(env.listing.value);
            && |r| == |zips|
            && (forall j :: 0 <= j < |zips| ==> r[j] == Unzip(Destination(cfg.dir, zips[j]), cfg.dir)))
  {
    var t := TestUnzip(cfg, env);
    match env.listing
    case None => {
      TransfersOfNone(t);
    }
    case Some(names) => {
      var zips := ZipEntries(names);
      if |zips| == 0 {
        TransfersOfNone(t);
      } else {
        var head: seq<HarnessEvent> := [Io(ListDirectory(cfg.dir)), Message(ZipsFound(|zips|))];
        assert t == head + ExtractAll(cfg, env, zips);
        TransfersOfNone(head);
        TransfersOfAppend(head, ExtractAll(cfg, env, zips));
        ExtractAllTransfers(cfg, env, zips);
      }
    }
  }

  /** The total logged before the loop is the sum of the declared sizes of all entries. */
  lemma TotalLogged(cfg: Config, env: Env)
    requires ListUsable(env)
    ensures var files := env.fileList.value.files;
      var t := TestFileDownload(cfg, env);
      && |t| > 2
      && t[2] == Message(TotalToDownload(PrefixSize(files, |files|)))
  {
  }

  /** Every extraction is directly preceded by the log line of its exact command line. */
  ghost predicate CommandLogged(t: seq<HarnessEvent>) {
    forall k :: 0 <= k < |t| && t[k].Io? && t[k].action.Unzip? ==>
      && 0 < k
      && t[k - 1] == Message(UnzipCommand(UnzipArguments(t[k].action.archive, t[k].action.directory)))
  }

  lemma CommandLoggedAppend(a: seq<HarnessEvent>, b: seq<HarnessEvent>)
    requires CommandLogged(a) && CommandLogged(b)
    ensures CommandLogged(a + b)
  {
    var t := a + b;
    forall k | 0 <= k < |t| && t[k].Io? && t[k].action.Unzip?
      ensures 0 < k
      ensures t[k - 1] == Message(UnzipCommand(UnzipArguments(t[k].action.archive, t[k].action.directory)))
    {
      if k >= |a| {
        assert t[k] == b[k - |a|];
        assert t[k - 1] == b[k - |a| - 1];
      }
    }
  }

  /** A trace with no extraction logs every extraction it runs. */
  lemma NoUnzipLogged(t: seq<HarnessEvent>)
    requires forall k :: 0 <= k < |t| ==> !(t[k].Io? && t[k].action.Unzip?)
    ensures CommandLogged(t)
  {
  }

  lemma ExtractionCommandLogged(cfg: Config, env: Env, name: string)
    ensures CommandLogged(Extraction(cfg, env, name))
  {
    var x := Extraction(cfg, env, name);
    NoUnzipLogged(x[3..]);
    CommandLoggedAppend(x[..3], x[3..]);
    assert x == x[..3] + x[3..];
  }

  lemma OutcomeCommandLogged(cfg: Config, env: Env, name: string)
    ensures CommandLogged(EntryOutcome(cfg, env, name))
  {
    var o := EntryOutcome(cfg, env, name);
    var path := Destination(cfg.dir, name);
    if env.download(name).Fail? || !env.existsAfterDownload(path) || !IsArchive(name) {
      NoUnzipLogged(o);
    } else {
      var x := Extraction(cfg, env, name);
      var check: seq<HarnessEvent> := [Io(CheckExists(path)), Message(Downloaded(name))];
      ExtractionCommandLogged(cfg, env, name);
      assert o == check + x;
      NoUnzipLogged(check);
      CommandLoggedAppend(check, x);
    }
  }

  lemma EntryCommandLogged(cfg: Config, env: Env, files: seq<FileInfo>, i: nat)
    requires i < |files|
    ensures CommandLogged(EntryEvents(cfg, env, files, i))
  {
    var ev := EntryEvents(cfg, env, files, i);
    var o := EntryOutcome(cfg, env, files[i].name);
    OutcomeCommandLogged(cfg, env, files[i].name);
    assert ev == ev[..2] + o;
    NoUnzipLogged(ev[..2]);
    CommandLoggedAppend(ev[..2], o);
  }

  lemma {:induction false} LoopCommandLogged(cfg: Config, env: Env, files: seq<FileInfo>, i: nat)
    requires i <= |files|
    ensures CommandLogged(LoopFrom(cfg, env, files, i))
    decreases |files| - i
  {
    if i < |files| {
      EntryCommandLogged(cfg, env, files, i);
      LoopCommandLogged(cfg, env, files, i + 1);
      CommandLoggedAppend(EntryEvents(cfg, env, files, i), LoopFrom(cfg, env, files, i + 1));
    }
  }

  lemma {:induction false} ExtractAllCommandLogged(cfg: Config, env: Env, zips: seq<string>)
    ensures CommandLogged(ExtractAll(cfg, env, zips))
  {
    if |zips| > 0 {
      ExtractAllCommandLogged(cfg, env, zips[1..]);
      CommandLoggedAppend(ExtractEvents(cfg, env, zips[0]), ExtractAll(cfg, env, zips[1..]));
    }
  }

  /**
    In both the download test and the extraction test, every `unzip` run is directly
    preceded by the log line of its argument vector `-q <archive> -d <dir>`.
   */
  lemma UnzipCommandsLogged(cfg: Config, env: Env)
    ensures CommandLogged(TestFileDownload(cfg, env))
    ensures CommandLogged(TestUnzip(cfg, env))
  {
    DownloadTestCommandsLogged(cfg, env);
    UnzipTestCommandsLogged(cfg, env);
  }

  lemma DownloadTestCommandsLogged(cfg: Config, env: Env)
    ensures CommandLogged(TestFileDownload(cfg, env))
  {
    var t := TestFileDownload(cfg, env);
    if ListUsable(env) {
      var files := env.fileList.value.files;
      var loop := LoopFrom(cfg, env, files, 0);
      var head: seq<HarnessEvent> :=
        [ Io(FetchFileList(ManifestURL(cfg.server))), Message(FilesFound(|files|)),
          Message(TotalToDownload(CheckedPrefixSize(files, |files|).value)) ];
      var tail: seq<HarnessEvent> := [Message(AllDownloadsDone), Io(ListDirectory(cfg.dir))];
      DownloadTestParts(cfg, env);
      LoopCommandLogged(cfg, env, files, 0);
      NoUnzipLogged(head);
      NoUnzipLogged(tail);
      CommandLoggedAppend(head, loop);
      CommandLoggedAppend(head + loop, tail);
    } else {
      NoUnzipLogged(t);
    }
  }

  lemma UnzipTestCommandsLogged(cfg: Config, env: Env)
    ensures CommandLogged(TestUnzip(cfg, env))
  {
    var u := TestUnzip(cfg, env);
    if env.listing.Some? && |ZipEntries(env.listing.value)| > 0 {
      var zips := ZipEntries(env.listing.value);
      var head: seq<HarnessEvent> := [Io(ListDirectory(cfg.dir)), Message(ZipsFound(|zips|))];
      assert u == head + ExtractAll(cfg, env, zips);
      ExtractAllCommandLogged(cfg, env, zips);
      NoUnzipLogged(head);
      CommandLoggedAppend(head, ExtractAll(cfg, env, zips));
    } else {
      NoUnzipLogged(u);
    }
  }

  /** Entry `name`'s download succeeded but its file is absent at `path`. */
  predicate MissingAt(cfg: Config, env: Env, name: string, path: string) {
    && path == Destination(cfg.dir, name)
    && env.download(name).Pass?
    && !env.existsAfterDownload(path)
  }

  /** Entry `name` is a present archive whose extraction exited with 0, so the harness
      removes it. */
  predicate RemovalDue(cfg: Config, env: Env, name: string) {
    && Arrived(cfg, env, name, true)
    && IsArchive(name)
    && env.unzip(Destination(cfg.dir, name)) == Exited(0)
  }

  /** One entry's outcome logs a missing file exactly when its download succeeded and the
      file is absent, and reports the removal exactly when the removal is requested. */
  lemma OutcomeNotes(cfg: Config, env: Env, name: string)
    ensures var o := EntryOutcome(cfg, env, name);
      && (forall p :: Message(MissingAfterDownload(p)) in o <==> MissingAt(cfg, env, name, p))
      && (forall n :: Message(ZipRemoved(n)) in o <==> n == name && RemovalDue(cfg, env, name))
      && (Io(Remove(Destination(cfg.dir, name))) in o <==> RemovalDue(cfg, env, name))
  {
    var path := Destination(cfg.dir, name);
    if env.download(name).Pass? && env.existsAfterDownload(path) && IsArchive(name) {
      var x := Extraction(cfg, env, name);
      assert EntryOutcome(cfg, env, name) == [Io(CheckExists(path)), Message(Downloaded(name))] + x;
      if env.unzip(path) == Exited(0) {
        assert x == [Message(Decompressing(name))] + UnzipCall(path, cfg.dir)
                    + [Message(Decompressed), Io(Remove(path)), Message(ZipRemoved(name))];
      } else {
        assert x == [Message(Decompressing(name))] + UnzipCall(path, cfg.dir)
                    + [Message(ProcessingFailed(name, UnzipFailed(UnzipResult(env.unzip(path)).error)))];
      }
    }
  }

  /** The entries from `i` on log a missing file at `path` exactly when one of them is
      missing there, and report the removal of `name` exactly when one of them named `name`
      is removed. */
  ghost predicate NotesFrom(cfg: Config, env: Env, files: seq<FileInfo>, i: nat, t: seq<HarnessEvent>)
    requires i <= |files|
  {
    && (forall p :: Message(MissingAfterDownload(p)) in t <==>
          exists j :: i <= j < |files| && MissingAt(cfg, env, files[j].name, p))
    && (forall n :: Message(ZipRemoved(n)) in t <==>
          exists j :: i <= j < |files| && files[j].name == n && RemovalDue(cfg, env, n))
  }

  /** The loop's notes are those of its entries. */
  lemma {:induction false} LoopNotes(cfg: Config, env: Env, files: seq<FileInfo>, i: nat)
    requires i <= |files|
    ensures NotesFrom(cfg, env, files, i, LoopFrom(cfg, env, files, i))
    decreases |files| - i
  {
    if i < |files| {
      LoopNotes(cfg, env, files, i + 1);
      NotesStep(cfg, env, files, i);
    }
  }

  /** One entry in front of the rest of the loop adds its own notes. */
  lemma NotesStep(cfg: Config, env: Env, files: seq<FileInfo>, i: nat)
    requires i < |files|
    requires NotesFrom(cfg, env, files, i + 1, LoopFrom(cfg, env, files, i + 1))
    ensures NotesFrom(cfg, env, files, i, LoopFrom(cfg, env, files, i))
  {
    var name := files[i].name;
    var o := EntryOutcome(cfg, env, name);
    var ev := EntryEvents(cfg, env, files, i);
    OutcomeNotes(cfg, env, name);
    assert ev == ev[..2] + o;
    assert LoopFrom(cfg, env, files, i) == ev + LoopFrom(cfg, env, files, i + 1);
  }

  /**
    The two reports of the download loop that nothing else decides: a file absent after a
    successful download is logged with its path, and the archive removal is reported exactly
    for the present archives whose extraction exited with 0. Both need a usable list.
   */
  lemma MissingAndRemovalReported(cfg: Config, env: Env)
    ensures var t := TestFileDownload(cfg, env);
      var files := if env.fileList.Success? then env.fileList.value.files else [];
      && (forall p :: Message(MissingAfterDownload(p)) in t <==>
            ListUsable(env) && exists j :: 0 <= j < |files| && MissingAt(cfg, env, files[j].name, p))
      && (forall n :: Message(ZipRemoved(n)) in t <==>
            ListUsable(env) && exists j :: 0 <= j < |files| && files[j].name == n && RemovalDue(cfg, env, n))
  {
    if ListUsable(env) {
      UsableNotes(cfg, env);
    } else {
      UnusableNotes(cfg, env);
    }
  }

  /** With a usable list, the download test's notes are those of its loop. */
  lemma UsableNotes(cfg: Config, env: Env)
    requires ListUsable(env)
    ensures NotesFrom(cfg, env, env.fileList.value.files, 0, TestFileDownload(cfg, env))
  {
    var files := env.fileList.value.files;
    var head: seq<HarnessEvent> :=
      [ Io(FetchFileList(ManifestURL(cfg.server))), Message(FilesFound(|files|)),
        Message(TotalToDownload(CheckedPrefixSize(files, |files|).value)) ];
    var loop := LoopFrom(cfg, env, files, 0);
    var tail: seq<HarnessEvent> := [Message(AllDownloadsDone), Io(ListDirectory(cfg.dir))];
    DownloadTestParts(cfg, env);
    LoopNotes(cfg, env, files, 0);
    FramedNotes(cfg, env, files, head, loop, tail);
  }

  /** Framing events without either note leave a loop's notes unchanged. */
  lemma FramedNotes(cfg: Config, env: Env, files: seq<FileInfo>,
                    head: seq<HarnessEvent>, loop: seq<HarnessEvent>, tail: seq<HarnessEvent>)
    requires NotesFrom(cfg, env, files, 0, loop)
    requires forall p :: Message(MissingAfterDownload(p)) !in head + tail
    requires forall n :: Message(ZipRemoved(n)) !in head + tail
    ensures NotesFrom(cfg, env, files, 0, head + loop + tail)
  {
  }

  /** Without a usable list the download test logs neither note. */
  lemma UnusableNotes(cfg: Config, env: Env)
    requires !ListUsable(env)
    ensures forall p :: Message(MissingAfterDownload(p)) !in TestFileDownload(cfg, env)
    ensures forall n :: Message(ZipRemoved(n)) !in TestFileDownload(cfg, env)
  {
  }

  /** The removal's result (`try?`) is never consulted: the download test is the same
      whatever it is, and the extraction test never removes. */
  lemma RemovalResultIgnored(cfg: Config, env: Env, removes: string -> bool)
    ensures TestFileDownload(cfg, env.(removes := removes)) == TestFileDownload(cfg, env)
    ensures TestUnzip(cfg, env.(removes := removes)) == TestUnzip(cfg, env)
  {
    var other := env.(removes := removes);
    if env.fileList.Success? {
      LoopIgnoresRemoval(cfg, env, other, env.fileList.value.files, 0);
    }
    if env.listing.Some? {
      ExtractAllIgnoresRemoval(cfg, env, other, ZipEntries(env.listing.value));
    }
  }

  /** The download loop reads only the download, presence and extraction outcomes. */
  lemma {:induction false} LoopIgnoresRemoval(cfg: Config, env: Env, other: Env, files: seq<FileInfo>, i: nat)
    requires i <= |files|
    requires other.download == env.download && other.unzip == env.unzip
    requires other.existsAfterDownload == env.existsAfterDownload
    ensures LoopFrom(cfg, other, files, i) == LoopFrom(cfg, env, files, i)
    decreases |files| - i
  {
    if i < |files| {
      LoopIgnoresRemoval(cfg, env, other, files, i + 1);
      RemovalStep(cfg, env, other, files, i);
    }
  }

  /** One entry in front of loops that agree gives loops that agree. */
  lemma RemovalStep(cfg: Config, env: Env, other: Env, files: seq<FileInfo>, i: nat)
    requires i < |files|
    requires other.download == env.download && other.unzip == env.unzip
    requires other.existsAfterDownload == env.existsAfterDownload
    requires LoopFrom(cfg, other, files, i + 1) == LoopFrom(cfg, env, files, i + 1)
    ensures LoopFrom(cfg, other, files, i) == LoopFrom(cfg, env, files, i)
  {
    OutcomeIgnoresRemoval(cfg, env, other, files[i].name);
  }

  /** An entry's outcome reads only the download, presence and extraction outcomes. */
  lemma OutcomeIgnoresRemoval(cfg: Config, env: Env, other: Env, name: string)
    requires other.download == env.download && other.unzip == env.unzip
    requires other.existsAfterDownload == env.existsAfterDownload
    ensures EntryOutcome(cfg, other, name) == EntryOutcome(cfg, env, name)
  {
    assert Extraction(cfg, other, name) == Extraction(cfg, env, name);
  }

  /** The extraction test reads only the extraction outcomes. */
  lemma {:induction false} ExtractAllIgnoresRemoval(cfg: Config, env: Env, other: Env, zips: seq<string>)
    requires other.unzip == env.unzip
    ensures ExtractAll(cfg, other, zips) == ExtractAll(cfg, env, zips)
  {
    if |zips| > 0 {
      ExtractAllIgnoresRemoval(cfg, env, other, zips[1..]);
    }
  }
}

=== FILE: installer.dfy ===
/**
  `InstallerApp.runInstallation`: three prerequisite gates, the file-list fetch, then one
  download (and, for archives, extraction and removal) per entry, aborting the whole run at
  the first failure. Each UI update (`updateStatus`, `updateProgress`, `updateFileInfo`, and
  `log`, which also updates the status label) is an event of the trace.
 */
module Installer {
  import opened Wrappers
  import opened Manifest
  import opened Transfer
  import opened Tools
  import opened Trace
  import opened Environment

  /** What the status label is set to. */
  datatype Status =
    | CheckingPrerequisites
    | DirectoryNotWritable(dir: string)
    | InsufficientSpace(available: int)
    | UnzipMissing
    | FetchingFileList
    | NoFilesOnServer
    | TotalToDownload(total: int)
    | Downloading(name: string)
    | Extracting(name: string)
    | ZipRemoved(name: string)
    | ProcessingFailed(name: string, error: FileError)
    | FileListFailed(cause: FetchError)
    | InstallationSucceeded

  type InstallerEvent = Event<Status>

  /** The progress value reported before entry `i` of `n`: `40 + i / n * 60`. */
  function ProgressBefore(i: nat, n: nat): (p: real)
    requires i < n
    ensures 40.0 <= p < 100.0
  {
    var fraction := i as real / n as real;
    assert 0.0 <= fraction < 1.0 by {
      assert fraction * (n as real) == i as real;
    }
    40.0 + fraction * 60.0
  }

  /** The events of processing entry `i`; they end in `Terminate` when the entry fails. */
  function EntryEvents(cfg: Config, env: Env, files: seq<FileInfo>, i: nat): seq<InstallerEvent>
    requires i < |files|
  {
    var file := files[i];
    [ Progress(ProgressBefore(i, |files|)),
      FileShown(file.name, file.size),
      Message(Downloading(file.name)),
      Io(Download(DownloadURL(cfg.server, file.name), Destination(cfg.dir, file.name))) ]
    + EntryOutcome(cfg, env, file.name)
  }

  /** What follows an entry's download request: the extraction and removal of an archive,
      or the error report and `Terminate` when either step throws. */
  function EntryOutcome(cfg: Config, env: Env, name: string): seq<InstallerEvent> {
    var path := Destination(cfg.dir, name);
    match env.download(name)
    case Fail(e) => [Message(ProcessingFailed(name, DownloadFailed(e))), Terminate]
    case Pass =>
      if !IsArchive(name) then []
      else
        [Message(Extracting(name)), Io(Unzip(path, cfg.dir))]
        + match UnzipResult(env.unzip(path))
          case Fail(e) => [Message(ProcessingFailed(name, UnzipFailed(e))), Terminate]
          case Pass => [Io(Remove(path)), Message(ZipRemoved(name))]
  }

  /** After the last entry: 100 %, the success message (logged, then set again), and the
      file label cleared before the delayed exit. */
  const Finish: seq<InstallerEvent> :=
    [ Progress(100.0),
      Message(InstallationSucceeded),
      Message(InstallationSucceeded),
      FileInfoCleared,
      Completed ]

  /** The download loop from entry `i` on; the first entry whose download or extraction
      throws ends it, its events closing with `Terminate`. */
  function TransferFrom(cfg: Config, env: Env, files: seq<FileInfo>, i: nat): seq<InstallerEvent>
    requires i <= |files|
    decreases |files| - i
  {
    if i == |files| then Finish
    else
      var entry := EntryEvents(cfg, env, files, i);
      if EntrySucceeds(cfg, env, files[i].name) then entry + TransferFrom(cfg, env, files, i + 1) else entry
  }

  /** From the list fetch on. */
  function Install(cfg: Config, env: Env): seq<InstallerEvent> {
    [Io(FetchFileList(ManifestURL(cfg.server)))]
    + match env.fileList
      case Failure(e) => [Message(FileListFailed(e)), Terminate]
      case Success(list) =>
        if |list.files| == 0 then [Message(NoFilesOnServer), Terminate]
        else
          match CheckedPrefixSize(list.files, |list.files|)
          case None => [Trap]
          case Some(total) => [Message(TotalToDownload(total))] + TransferFrom(cfg, env, list.files, 0)
  }

  /** Third gate: the `which unzip` lookup; then the directory creation (its failure is
      ignored) and the list fetch. */
  function UnzipGate(cfg: Config, env: Env): seq<InstallerEvent> {
    [Io(LookupUnzip)]
    + if !IsUnzipInstalled(env.whichUnzip) then [Message(UnzipMissing), Terminate]
      else
        [Progress(30.0), Io(CreateDirectory(cfg.dir)), Message(FetchingFileList), Progress(40.0)]
        + Install(cfg, env)
  }

  /** Second gate: free bytes against the threshold. */
  function SpaceGate(cfg: Config, env: Env): seq<InstallerEvent> {
    var available := AvailableDiskSpace(env.freeSpace);
    [Io(ProbeFreeSpace(cfg.dir))]
    + if available < cfg.requiredSpace then [Message(InsufficientSpace(available)), Terminate]
      else [Progress(20.0)] + UnzipGate(cfg, env)
  }

  /** The whole run; the first gate is the writability of the working directory. */
  function Run(cfg: Config, env: Env): seq<InstallerEvent> {
    [Message(CheckingPrerequisites), Progress(0.0), Io(ProbeWritable(cfg.dir))]
    + if !env.writable then [Message(DirectoryNotWritable(cfg.dir)), Terminate]
      else [Progress(10.0)] + SpaceGate(cfg, env)
  }

  /** The run reaches the download loop. */
  predicate ReachesTransfers(cfg: Config, env: Env) {
    PrerequisitesPass(cfg, env) && ListUsable(env)
  }

  /** The run installs everything. */
  predicate Succeeds(cfg: Config, env: Env) {
    && ReachesTransfers(cfg, env)
    && forall j :: 0 <= j < |env.fileList.value.files| ==>
         EntrySucceeds(cfg, env, env.fileList.value.files[j].name)
  }
}

=== FILE: installer_proofs.dfy ===
/**
  What `runInstallation` promises, stated over the trace of `Installer.Run`: the gate
  order, no I/O after a failure, the progress values, which entries are downloaded,
  extracted and removed, and how the run ends.
 */
module InstallerProofs {
  import opened Wrappers
  import opened Manifest
  import opened Transfer
  import opened Tools
  import opened Trace
  import opened Environment
  import opened Installer

  /** The values reported before entries `i` to `m - 1` of `n`. */
  function Checkpoints(i: nat, m: nat, n: nat): (r: seq<real>)
    requires i <= m <= n
    ensures |r| == m - i
    ensures forall j :: 0 <= j < m - i ==> r[j] == ProgressBefore(i + j, n)
    decreases m - i
  {
    if i == m then [] else [ProgressBefore(i, n)] + Checkpoints(i + 1, m, n)
  }

  /** The per-entry value grows with the index. */
  lemma ProgressBeforeMonotone(i: nat, j: nat, n: nat)
    requires i <= j < n
    ensures ProgressBefore(i, n) <= ProgressBefore(j, n)
  {
    var a := i as real / n as real;
    var b := j as real / n as real;
    assert a * (n as real) == i as real;
    assert b * (n as real) == j as real;
    assert (b - a) * (n as real) == (j - i) as real;
  }

  lemma CheckpointsNonDecreasing(i: nat, m: nat, n: nat)
    requires i <= m <= n
    ensures NonDecreasing(Checkpoints(i, m, n))
  {
    var c := Checkpoints(i, m, n);
    forall a, b | 0 <= a < b < |c|
      ensures c[a] <= c[b]
    {
      ProgressBeforeMonotone(i + a, i + b, n);
    }
  }

  /**
    What follows an entry's download: no progress report, a terminal event only at the end,
    and that one a `Terminate` exactly when the download or the extraction fails; its
    transfers are the entry's planned ones after the download.
   */
  lemma EntryOutcomeFacts(cfg: Config, env: Env, name: string)
    ensures var o := EntryOutcome(cfg, env, name);
      && (forall k :: 0 <= k < |o| ==> !o[k].Progress?)
      && (forall k :: 0 <= k < |o| - 1 ==> !o[k].IsTerminal())
      && (|o| > 0 && o[|o| - 1].IsTerminal() <==> !EntrySucceeds(cfg, env, name))
      && (|o| > 0 && o[|o| - 1].IsTerminal() ==> o[|o| - 1].Terminate?)
      && TransfersOf(o) == EntryTransfers(cfg, env, name, false)[1..]
  {
    var o := EntryOutcome(cfg, env, name);
    var path := Destination(cfg.dir, name);
    match env.download(name)
    case Fail(e) => {
      TransfersOfNone(o);
    }
    case Pass => {
      if IsArchive(name) {
        match UnzipResult(env.unzip(path))
        case Fail(e) => {
          TransfersOfSingle(o, 1);
        }
        case Pass => {
          ExtractAndRemove(o, path, cfg.dir);
        }
      }
    }
  }

  /** Four events whose only transfers are an extraction at 1 and a removal at 2. */
  lemma ExtractAndRemove(o: seq<InstallerEvent>, path: string, dir: string)
    requires |o| == 4 && o[1] == Io(Unzip(path, dir)) && o[2] == Io(Remove(path))
    requires !o[0].IsTransfer() && !o[3].IsTransfer()
    ensures TransfersOf(o) == [Unzip(path, dir), Remove(path)]
  {
    TransfersOfSingle(o[..2], 1);
    TransfersOfSingle(o[2..], 0);
    TransfersOfAppend(o[..2], o[2..]);
    assert o == o[..2] + o[2..];
  }

  /**
    One entry: its events open with the entry's progress value, issue exactly the entry's
    planned transfers, and end in `Terminate` exactly when the download or the extraction
    fails; nothing else in them is terminal or a progress report.
   */
  lemma EntryEventsFacts(cfg: Config, env: Env, files: seq<FileInfo>, i: nat)
    requires i < |files|
    ensures var ev := EntryEvents(cfg, env, files, i);
      && |ev| >= 4
      && ev[0] == Progress(ProgressBefore(i, |files|))
      && (forall k :: 1 <= k < |ev| ==> !ev[k].Progress?)
      && (forall k :: 0 <= k < |ev| - 1 ==> !ev[k].IsTerminal())
      && (ev[|ev| - 1].IsTerminal() <==> ev[|ev| - 1].Terminate?)
      && (ev[|ev| - 1].Terminate? <==> !EntrySucceeds(cfg, env, files[i].name))
      && ProgressOf(ev) == [ProgressBefore(i, |files|)]
      && TransfersOf(ev) == EntryTransfers(cfg, env, files[i].name, false)
  {
    var name := files[i].name;
    var ev := EntryEvents(cfg, env, files, i);
    var head := ev[..4];
    var o := EntryOutcome(cfg, env, name);
    assert ev == head + o;
    EntryOutcomeFacts(cfg, env, name);
    assert forall k :: 1 <= k < |ev| ==> !ev[k].Progress? by {
      forall k | 4 <= k < |ev| ensures !ev[k].Progress? {
        assert ev[k] == o[k - 4];
      }
    }
    assert forall k :: 0 <= k < |ev| - 1 ==> !ev[k].IsTerminal() by {
      forall k | 4 <= k < |ev| - 1 ensures !ev[k].IsTerminal() {
        assert ev[k] == o[k - 4];
      }
    }
    assert ev[|ev| - 1].IsTerminal() <==> |o| > 0 && o[|o| - 1].IsTerminal();
    assert ev == [ev[0]] + ev[1..];
    ProgressOfLeading(ProgressBefore(i, |files|), ev[1..]);
    TransfersOfSingle(head, 3);
    TransfersOfAppend(head, o);
    var planned := EntryTransfers(cfg, env, name, false);
    assert planned == [DownloadOf(cfg, name)] + planned[1..];
  }

  /** The only progress value of an entry's events is its checkpoint. */
  lemma EntryProgress(cfg: Config, env: Env, files: seq<FileInfo>, i: nat)
    requires i < |files|
    ensures ProgressOf(EntryEvents(cfg, env, files, i)) == [ProgressBefore(i, |files|)]
  {
    EntryEventsFacts(cfg, env, files, i);
  }

  /** The transfers of an entry's events are its planned ones. */
  lemma EntryTransfersIssued(cfg: Config, env: Env, files: seq<FileInfo>, i: nat)
    requires i < |files|
    ensures TransfersOf(EntryEvents(cfg, env, files, i)) == EntryTransfers(cfg, env, files[i].name, false)
  {
    EntryEventsFacts(cfg, env, files, i);
  }

  /** A succeeding entry's events hold no terminal event; a failing one's end in `Terminate`. */
  lemma EntryEnding(cfg: Config, env: Env, files: seq<FileInfo>, i: nat)
    requires i < |files|
    ensures var ev := EntryEvents(cfg, env, files, i);
      && (EntrySucceeds(cfg, env, files[i].name) ==> forall p :: 0 <= p < |ev| ==> !ev[p].IsTerminal())
      && (!EntrySucceeds(cfg, env, files[i].name) ==> EndsOnce(ev) && ev[|ev| - 1] == Terminate)
  {
    EntryEventsFacts(cfg, env, files, i);
  }

  /** One step of the loop: an entry's events, then the rest of the loop only if the entry
      succeeded. */
  lemma TransferStep(cfg: Config, env: Env, files: seq<FileInfo>, i: nat)
    requires i < |files|
    ensures TransferFrom(cfg, env, files, i)
         == EntryEvents(cfg, env, files, i)
            + (if EntrySucceeds(cfg, env, files[i].name) then TransferFrom(cfg, env, files, i + 1) else [])
  {
    var ev := EntryEvents(cfg, env, files, i);
    EntryEventsFacts(cfg, env, files, i);
    if !EntrySucceeds(cfg, env, files[i].name) {
      assert ev + [] == ev;
    }
  }

  /** Splitting the first entry off a run of consecutive entries. */
  lemma PlannedStep(cfg: Config, env: Env, files: seq<FileInfo>, i: nat, m: nat)
    requires i < m <= |files|
    ensures PlannedTransfers(cfg, env, files[i..m], false)
         == EntryTransfers(cfg, env, files[i].name, false) + PlannedTransfers(cfg, env, files[i + 1..m], false)
  {
    assert files[i..m][0] == files[i];
    assert files[i..m][1..] == files[i + 1..m];
  }

  /**
    The download loop from entry `i` on (with no failure before `i`) issues exactly the
    planned transfers of entries `i` up to and including the first failing one.
   */
  lemma {:induction false} LoopTransfers(cfg: Config, env: Env, files: seq<FileInfo>, i: nat)
    requires i <= FirstFailure(cfg, env, files)
    ensures TransfersOf(TransferFrom(cfg, env, files, i))
         == PlannedTransfers(cfg, env, files[i..Attempted(cfg, env, files)], false)
    decreases |files| - i
  {
    if i == |files| {
      TransfersAtEnd(cfg, env, files, Attempted(cfg, env, files));
    } else if EntrySucceeds(cfg, env, files[i].name) {
      LoopTransfers(cfg, env, files, i + 1);
      TransfersStep(cfg, env, files, i);
    } else {
      TransfersAtFailure(cfg, env, files, i);
    }
  }

  /** Past the last entry nothing is transferred; `a` is the attempted count, which is then
      the whole list. */
  lemma TransfersAtEnd(cfg: Config, env: Env, files: seq<FileInfo>, a: nat)
    requires a == |files|
    ensures TransfersOf(TransferFrom(cfg, env, files, |files|))
         == PlannedTransfers(cfg, env, files[|files|..a], false)
  {
    FinishQuiet();
    assert files[|files|..a] == [];
  }

  /** The closing events issue no transfer. */
  lemma FinishQuiet()
    ensures TransfersOf(Finish) == []
  {
    TransfersOfNone(Finish);
  }

  /** A succeeding entry prepends its planned transfers to those of the rest of the loop. */
  lemma TransfersStep(cfg: Config, env: Env, files: seq<FileInfo>, i: nat)
    requires i < |files| && i <= FirstFailure(cfg, env, files)
    requires EntrySucceeds(cfg, env, files[i].name)
    requires TransfersOf(TransferFrom(cfg, env, files, i + 1))
          == PlannedTransfers(cfg, env, files[i + 1..Attempted(cfg, env, files)], false)
    ensures TransfersOf(TransferFrom(cfg, env, files, i))
         == PlannedTransfers(cfg, env, files[i..Attempted(cfg, env, files)], false)
  {
    var ev := EntryEvents(cfg, env, files, i);
    var rest := TransferFrom(cfg, env, files, i + 1);
    EntryTransfersIssued(cfg, env, files, i);
    TransferStep(cfg, env, files, i);
    PlannedStep(cfg, env, files, i, Attempted(cfg, env, files));
    TransfersOfAppend(ev, rest);
  }

  /** The failing entry's transfers are the last ones of the loop. */
  lemma TransfersAtFailure(cfg: Config, env: Env, files: seq<FileInfo>, i: nat)
    requires i < |files| && i <= FirstFailure(cfg, env, files)
    requires !EntrySucceeds(cfg, env, files[i].name)
    ensures TransfersOf(TransferFrom(cfg, env, files, i))
         == PlannedTransfers(cfg, env, files[i..Attempted(cfg, env, files)], false)
  {
    var ev := EntryEvents(cfg, env, files, i);
    EntryTransfersIssued(cfg, env, files, i);
    TransferStep(cfg, env, files, i);
    assert ev + [] == ev;
    assert FirstFailure(cfg, env, files) == i;
    PlannedStep(cfg, env, files, i, i + 1);
    assert files[i + 1..i + 1] == [];
  }

  /**
    The loop from entry `i` on reports the checkpoint of every entry it starts, in order,
    and 100 only once every entry has succeeded.
   */
  lemma {:induction false} LoopProgress(cfg: Config, env: Env, files: seq<FileInfo>, i: nat)
    requires i <= FirstFailure(cfg, env, files)
    ensures ProgressOf(TransferFrom(cfg, env, files, i))
         == Checkpoints(i, Attempted(cfg, env, files), |files|)
            + (if FirstFailure(cfg, env, files) == |files| then [100.0] else [])
    decreases |files| - i
  {
    if i == |files| {
      ProgressAtEnd(cfg, env, files);
    } else if EntrySucceeds(cfg, env, files[i].name) {
      LoopProgress(cfg, env, files, i + 1);
      ProgressStep(cfg, env, files, i);
    } else {
      ProgressAtFailure(cfg, env, files, i);
    }
  }

  /** Past the last entry only the final 100 is reported. */
  lemma ProgressAtEnd(cfg: Config, env: Env, files: seq<FileInfo>)
    requires FirstFailure(cfg, env, files) == |files|
    ensures ProgressOf(TransferFrom(cfg, env, files, |files|))
         == Checkpoints(|files|, Attempted(cfg, env, files), |files|) + [100.0]
  {
    ProgressOfLeading(100.0, Finish[1..]);
    assert [Progress(100.0)] + Finish[1..] == Finish;
  }

  /** A succeeding entry prepends its checkpoint to the values of the rest of the loop. */
  lemma ProgressStep(cfg: Config, env: Env, files: seq<FileInfo>, i: nat)
    requires i < |files| && i <= FirstFailure(cfg, env, files)
    requires EntrySucceeds(cfg, env, files[i].name)
    requires ProgressOf(TransferFrom(cfg, env, files, i + 1))
          == Checkpoints(i + 1, Attempted(cfg, env, files), |files|)
             + (if FirstFailure(cfg, env, files) == |files| then [100.0] else [])
    ensures ProgressOf(TransferFrom(cfg, env, files, i))
         == Checkpoints(i, Attempted(cfg, env, files), |files|)
            + (if FirstFailure(cfg, env, files) == |files| then [100.0] else [])
  {
    var n := |files|;
    var attempted := Attempted(cfg, env, files);
    var last: seq<real> := if FirstFailure(cfg, env, files) == n then [100.0] else [];
    var ev := EntryEvents(cfg, env, files, i);
    var rest := TransferFrom(cfg, env, files, i + 1);
    var later := Checkpoints(i + 1, attempted, n);
    EntryProgress(cfg, env, files, i);
    TransferStep(cfg, env, files, i);
    ProgressOfAppend(ev, rest);
    assert Checkpoints(i, attempted, n) == [ProgressBefore(i, n)] + later;
    calc {
      ProgressOf(TransferFrom(cfg, env, files, i));
      ProgressOf(ev + rest);
      ProgressOf(ev) + ProgressOf(rest);
      [ProgressBefore(i, n)] + (later + last);
      ([ProgressBefore(i, n)] + later) + last;
    }
  }

  /** The failing entry reports its checkpoint and nothing follows. */
  lemma ProgressAtFailure(cfg: Config, env: Env, files: seq<FileInfo>, i: nat)
    requires i < |files| && i <= FirstFailure(cfg, env, files)
    requires !EntrySucceeds(cfg, env, files[i].name)
    ensures ProgressOf(TransferFrom(cfg, env, files, i))
         == Checkpoints(i, Attempted(cfg, env, files), |files|)
            + (if FirstFailure(cfg, env, files) == |files| then [100.0] else [])
  {
    EntryEventsFacts(cfg, env, files, i);
    TransferStep(cfg, env, files, i);
    assert EntryEvents(cfg, env, files, i) + [] == EntryEvents(cfg, env, files, i);
    assert FirstFailure(cfg, env, files) == i;
    assert Checkpoints(i, i + 1, |files|) == [ProgressBefore(i, |files|)];
  }

  /** The loop ends exactly once, in `Completed` exactly when no entry fails. */
  lemma {:induction false} LoopEnds(cfg: Config, env: Env, files: seq<FileInfo>, i: nat)
    requires i <= FirstFailure(cfg, env, files)
    ensures var t := TransferFrom(cfg, env, files, i);
      && EndsOnce(t)
      && t[|t| - 1] == (if FirstFailure(cfg, env, files) == |files| then Completed else Terminate)
    decreases |files| - i
  {
    if i == |files| {
      assert TransferFrom(cfg, env, files, i) == Finish;
    } else if EntrySucceeds(cfg, env, files[i].name) {
      LoopEnds(cfg, env, files, i + 1);
      EndsStep(cfg, env, files, i);
    } else {
      EndsAtFailure(cfg, env, files, i);
    }
  }

  /** A succeeding entry adds no terminal event in front of the rest of the loop. */
  lemma EndsStep(cfg: Config, env: Env, files: seq<FileInfo>, i: nat)
    requires i < |files|
    requires EntrySucceeds(cfg, env, files[i].name)
    requires var rest := TransferFrom(cfg, env, files, i + 1);
      EndsOnce(rest) && rest[|rest| - 1] == (if FirstFailure(cfg, env, files) == |files| then Completed else Terminate)
    ensures var t := TransferFrom(cfg, env, files, i);
      && EndsOnce(t)
      && t[|t| - 1] == (if FirstFailure(cfg, env, files) == |files| then Completed else Terminate)
  {
    var ev := EntryEvents(cfg, env, files, i);
    var rest := TransferFrom(cfg, env, files, i + 1);
    EntryEnding(cfg, env, files, i);
    TransferStep(cfg, env, files, i);
    EndsOnceAppend(ev, rest);
  }

  /** The failing entry's events end the loop with `Terminate`. */
  lemma EndsAtFailure(cfg: Config, env: Env, files: seq<FileInfo>, i: nat)
    requires i < |files| && i <= FirstFailure(cfg, env, files)
    requires !EntrySucceeds(cfg, env, files[i].name)
    ensures var t := TransferFrom(cfg, env, files, i);
      && EndsOnce(t)
      && t[|t| - 1] == (if FirstFailure(cfg, env, files) == |files| then Completed else Terminate)
  {
    var ev := EntryEvents(cfg, env, files, i);
    EntryEnding(cfg, env, files, i);
    TransferStep(cfg, env, files, i);
    assert ev + [] == ev;
    assert FirstFailure(cfg, env, files) == i;
  }

  /** The progress values of the download loop over the whole list. */
  function LoopValues(cfg: Config, env: Env, files: seq<FileInfo>): seq<real> {
    Checkpoints(0, Attempted(cfg, env, files), |files|)
    + (if FirstFailure(cfg, env, files) == |files| then [100.0] else [])
  }

  /** The part of the run after the list fetch, when the loop is not reached, is a short
      error tail: a message then the end, or the overflow trap. */
  lemma InstallTail(cfg: Config, env: Env)
    requires !ListUsable(env)
    ensures var rest := Install(cfg, env)[1..];
      && Install(cfg, env) == [Io(FetchFileList(ManifestURL(cfg.server)))] + rest
      && 1 <= |rest| <= 2
      && (forall p :: 0 <= p < |rest| ==> !rest[p].Io? && !rest[p].Progress?)
      && EndsOnce(rest)
      && rest[|rest| - 1] == (if ListOverflows(env) then Trap else Terminate)
  {
  }

  /** The part of the run after the list fetch, when the list is usable: the total-size
      message, then the loop. */
  lemma InstallLoop(cfg: Config, env: Env)
    requires ListUsable(env)
    ensures var files := env.fileList.value.files;
      var note := Install(cfg, env)[1];
      && Install(cfg, env)
         == [Io(FetchFileList(ManifestURL(cfg.server))), note] + TransferFrom(cfg, env, files, 0)
      && note.Message?
  {
    var files := env.fileList.value.files;
    var total := CheckedPrefixSize(files, |files|).value;
    var fetch: InstallerEvent := Io(FetchFileList(ManifestURL(cfg.server)));
    var loop := TransferFrom(cfg, env, files, 0);
    assert Install(cfg, env) == [fetch] + ([Message(TotalToDownload(total))] + loop);
    assert [fetch] + ([Message(TotalToDownload(total))] + loop) == [fetch, Message(TotalToDownload(total))] + loop;
  }

  /** From the list fetch on, the I/O requests: the fetch, then the loop's if the list is
      usable. */
  lemma InstallIo(cfg: Config, env: Env)
    ensures IoOf(Install(cfg, env))
         == [FetchFileList(ManifestURL(cfg.server))]
            + (if ListUsable(env) then IoOf(TransferFrom(cfg, env, env.fileList.value.files, 0)) else [])
  {
    var t := Install(cfg, env);
    var fetch: seq<InstallerEvent> := [Io(FetchFileList(ManifestURL(cfg.server)))];
    if ListUsable(env) {
      InstallLoop(cfg, env);
      var loop := TransferFrom(cfg, env, env.fileList.value.files, 0);
      IoOfAppend(t[..2], loop);
      assert t == t[..2] + loop;
      IoOfSingle(t[..2], 0);
    } else {
      InstallTail(cfg, env);
      IoOfAppend(fetch, t[1..]);
      IoOfNone(t[1..]);
    }
  }

  /** From the list fetch on, the transfers: the planned ones of the attempted entries. */
  lemma InstallTransfers(cfg: Config, env: Env)
    ensures TransfersOf(Install(cfg, env))
         == (if ListUsable(env)
             then PlannedTransfers(cfg, env, env.fileList.value.files[..Attempted(cfg, env, env.fileList.value.files)], false)
             else [])
  {
    var t := Install(cfg, env);
    if ListUsable(env) {
      var files := env.fileList.value.files;
      InstallLoop(cfg, env);
      var loop := TransferFrom(cfg, env, files, 0);
      assert t == t[..2] + loop;
      TransfersOfAppend(t[..2], loop);
      TransfersOfNone(t[..2]);
      LoopTransfers(cfg, env, files, 0);
      assert files[0..Attempted(cfg, env, files)] == files[..Attempted(cfg, env, files)];
    } else {
      InstallTail(cfg, env);
      TransfersOfNone(t);
    }
  }

  /** From the list fetch on, the progress values: those of the loop, if it runs. */
  lemma InstallProgress(cfg: Config, env: Env)
    ensures ProgressOf(Install(cfg, env))
         == (if ListUsable(env) then LoopValues(cfg, env, env.fileList.value.files) else [])
  {
    var t := Install(cfg, env);
    if ListUsable(env) {
      var files := env.fileList.value.files;
      InstallLoop(cfg, env);
      var loop := TransferFrom(cfg, env, files, 0);
      assert t == t[..2] + loop;
      ProgressOfAppend(t[..2], loop);
      ProgressOfNone(t[..2]);
      LoopProgress(cfg, env, files, 0);
    } else {
      InstallTail(cfg, env);
      ProgressOfNone(t);
    }
  }

  /** From the list fetch on, the run ends once: in `Completed` only after a usable list whose
      entries all succeed, in `Trap` when summing the sizes overflows. */
  lemma InstallEnds(cfg: Config, env: Env)
    ensures var t := Install(cfg, env);
      && EndsOnce(t)
      && t[|t| - 1]
         == (if ListUsable(env)
             then (if FirstFailure(cfg, env, env.fileList.value.files) == |env.fileList.value.files|
                   then Completed else Terminate)
             else if ListOverflows(env) then Trap
             else Terminate)
  {
    var t := Install(cfg, env);
    if ListUsable(env) {
      var files := env.fileList.value.files;
      InstallLoop(cfg, env);
      var loop := TransferFrom(cfg, env, files, 0);
      assert t == t[..2] + loop;
      LoopEnds(cfg, env, files, 0);
      EndsOnceAppend(t[..2], loop);
    } else {
      InstallTail(cfg, env);
      EndsOnceAppend(t[..1], t[1..]);
      assert t == t[..1] + t[1..];
    }
  }

  /** Prerequisite failure, when `Run` stops at a gate: which one it is. */
  datatype GateFailure = NotWritable | NoSpace | NoUnzip

  /** The first prerequisite that fails, if any, in the order the gates run. */
  function FailedGate(cfg: Config, env: Env): Option<GateFailure> {
    if !env.writable then Some(NotWritable)
    else if !SpaceSufficient(AvailableDiskSpace(env.freeSpace), cfg.requiredSpace) then Some(NoSpace)
    else if !IsUnzipInstalled(env.whichUnzip) then Some(NoUnzip)
    else None
  }

  /** The I/O requests of the gates the run reaches, in order. */
  function GateIo(cfg: Config, env: Env): seq<IoAction> {
    match FailedGate(cfg, env)
    case Some(NotWritable) => [ProbeWritable(cfg.dir)]
    case Some(NoSpace) => [ProbeWritable(cfg.dir), ProbeFreeSpace(cfg.dir)]
    case Some(NoUnzip) => [ProbeWritable(cfg.dir), ProbeFreeSpace(cfg.dir), LookupUnzip]
    case None => [ProbeWritable(cfg.dir), ProbeFreeSpace(cfg.dir), LookupUnzip, CreateDirectory(cfg.dir)]
  }

  /** The progress values of the gates the run passes. */
  function GateValues(cfg: Config, env: Env): seq<real> {
    match FailedGate(cfg, env)
    case Some(NotWritable) => [0.0]
    case Some(NoSpace) => [0.0, 10.0]
    case Some(NoUnzip) => [0.0, 10.0, 20.0]
    case None => [0.0, 10.0, 20.0, 30.0, 40.0]
  }

  /** The events the run issues before each gate's decision, each chunk opened by its
      progress report. */
  function Opening(cfg: Config): seq<InstallerEvent> {
    [Message(CheckingPrerequisites), Progress(0.0), Io(ProbeWritable(cfg.dir))]
  }

  function SpaceProbe(cfg: Config): seq<InstallerEvent> {
    [Progress(10.0), Io(ProbeFreeSpace(cfg.dir))]
  }

  function UnzipProbe(): seq<InstallerEvent> {
    [Progress(20.0), Io(LookupUnzip)]
  }

  function Preparation(cfg: Config): seq<InstallerEvent> {
    [Progress(30.0), Io(CreateDirectory(cfg.dir)), Message(FetchingFileList), Progress(40.0)]
  }

  lemma ChunkFacts(cfg: Config)
    ensures IoOf(Opening(cfg)) == [ProbeWritable(cfg.dir)]
    ensures IoOf(SpaceProbe(cfg)) == [ProbeFreeSpace(cfg.dir)]
    ensures IoOf(UnzipProbe()) == [LookupUnzip]
    ensures IoOf(Preparation(cfg)) == [CreateDirectory(cfg.dir)]
    ensures ProgressOf(Opening(cfg)) == [0.0]
    ensures ProgressOf(SpaceProbe(cfg)) == [10.0]
    ensures ProgressOf(UnzipProbe()) == [20.0]
    ensures ProgressOf(Preparation(cfg)) == [30.0, 40.0]
  {
    IoOfSingle(Opening(cfg), 2);
    IoOfSingle(SpaceProbe(cfg), 1);
    IoOfSingle(UnzipProbe(), 1);
    IoOfSingle(Preparation(cfg), 1);
    var o := Opening(cfg);
    ProgressOfAppend(o[..1], o[1..]);
    ProgressOfNone(o[..1]);
    ProgressOfLeading(0.0, o[2..]);
    assert o[1..] == [Progress(0.0)] + o[2..];
    assert o == o[..1] + o[1..];
    var sp := SpaceProbe(cfg);
    ProgressOfLeading(10.0, sp[1..]);
    assert sp == [Progress(10.0)] + sp[1..];
    var up := UnzipProbe();
    ProgressOfLeading(20.0, up[1..]);
    assert up == [Progress(20.0)] + up[1..];
    var pr := Preparation(cfg);
    ProgressOfAppend(pr[..3], pr[3..]);
    ProgressOfLeading(30.0, pr[1..3]);
    assert pr[..3] == [Progress(30.0)] + pr[1..3];
    assert pr == pr[..3] + pr[3..];
  }

  /** The run when the working directory is not writable. */
  lemma RunNotWritable(cfg: Config, env: Env)
    requires !env.writable
    ensures Run(cfg, env) == Opening(cfg) + [Message(DirectoryNotWritable(cfg.dir)), Terminate]
  {
  }

  /** The run when the free space is below the threshold. */
  lemma RunNoSpace(cfg: Config, env: Env)
    requires env.writable
    requires AvailableDiskSpace(env.freeSpace) < cfg.requiredSpace
    ensures Run(cfg, env)
         == Opening(cfg) + SpaceProbe(cfg)
            + [Message(InsufficientSpace(AvailableDiskSpace(env.freeSpace))), Terminate]
  {
  }

  /** The run when the unzip lookup fails. */
  lemma RunNoUnzip(cfg: Config, env: Env)
    requires env.writable
    requires AvailableDiskSpace(env.freeSpace) >= cfg.requiredSpace
    requires !IsUnzipInstalled(env.whichUnzip)
    ensures Run(cfg, env)
         == Opening(cfg) + SpaceProbe(cfg) + UnzipProbe() + [Message(UnzipMissing), Terminate]
  {
  }

  /** The run when every gate passes. */
  lemma RunPastGates(cfg: Config, env: Env)
    requires PrerequisitesPass(cfg, env)
    ensures Run(cfg, env)
         == Opening(cfg) + SpaceProbe(cfg) + UnzipProbe() + Preparation(cfg) + Install(cfg, env)
  {
  }

  /** The error tail of a run stopped by a gate: a message then `Terminate`. */
  lemma ErrorTail(m: Status)
    ensures IoOf([Message(m), Terminate]) == []
    ensures ProgressOf([Message(m), Terminate]) == []
    ensures EndsOnce([Message(m), Terminate])
  {
    IoOfNone([Message(m), Terminate]);
    ProgressOfNone([Message(m), Terminate]);
  }

  /** A transfer-free, unended prefix followed by an error message and `Terminate`: the
      probes and progress values are the prefix's, and the run ends there. */
  lemma GateStop(pre: seq<InstallerEvent>, m: Status)
    requires Unended(pre)
    requires TransfersOf(pre) == []
    ensures var t := pre + [Message(m), Terminate];
      && IoOf(t) == IoOf(pre)
      && ProgressOf(t) == ProgressOf(pre)
      && TransfersOf(t) == []
      && EndsOnce(t)
      && t[|t| - 1] == Terminate
  {
    var tail: seq<InstallerEvent> := [Message(m), Terminate];
    ErrorTail(m);
    TransfersOfNone(tail);
    IoOfAppend(pre, tail);
    ProgressOfAppend(pre, tail);
    TransfersOfAppend(pre, tail);
    EndsOnceAppend(pre, tail);
  }

  lemma StoppedNotWritable(cfg: Config, env: Env)
    requires !env.writable
    ensures IoOf(Run(cfg, env)) == [ProbeWritable(cfg.dir)]
    ensures ProgressOf(Run(cfg, env)) == [0.0]
    ensures TransfersOf(Run(cfg, env)) == []
    ensures EndsOnce(Run(cfg, env)) && Run(cfg, env)[|Run(cfg, env)| - 1] == Terminate
  {
    var pre := Opening(cfg);
    RunNotWritable(cfg, env);
    ChunkFacts(cfg);
    TransfersOfNone(pre);
    GateStop(pre, DirectoryNotWritable(cfg.dir));
  }

  lemma StoppedNoSpace(cfg: Config, env: Env)
    requires env.writable
    requires AvailableDiskSpace(env.freeSpace) < cfg.requiredSpace
    ensures IoOf(Run(cfg, env)) == [ProbeWritable(cfg.dir), ProbeFreeSpace(cfg.dir)]
    ensures ProgressOf(Run(cfg, env)) == [0.0, 10.0]
    ensures TransfersOf(Run(cfg, env)) == []
    ensures EndsOnce(Run(cfg, env)) && Run(cfg, env)[|Run(cfg, env)| - 1] == Terminate
  {
    var pre := Opening(cfg) + SpaceProbe(cfg);
    RunNoSpace(cfg, env);
    ChunkFacts(cfg);
    IoOfAppend(Opening(cfg), SpaceProbe(cfg));
    ProgressOfAppend(Opening(cfg), SpaceProbe(cfg));
    TransfersOfNone(pre);
    GateStop(pre, InsufficientSpace(AvailableDiskSpace(env.freeSpace)));
  }

  lemma StoppedNoUnzip(cfg: Config, env: Env)
    requires env.writable
    requires AvailableDiskSpace(env.freeSpace) >= cfg.requiredSpace
    requires !IsUnzipInstalled(env.whichUnzip)
    ensures IoOf(Run(cfg, env)) == [ProbeWritable(cfg.dir), ProbeFreeSpace(cfg.dir), LookupUnzip]
    ensures ProgressOf(Run(cfg, env)) == [0.0, 10.0, 20.0]
    ensures TransfersOf(Run(cfg, env)) == []
    ensures EndsOnce(Run(cfg, env)) && Run(cfg, env)[|Run(cfg, env)| - 1] == Terminate
  {
    var a := Opening(cfg) + SpaceProbe(cfg);
    var pre := a + UnzipProbe();
    RunNoUnzip(cfg, env);
    ChunkFacts(cfg);
    IoOfAppend(Opening(cfg), SpaceProbe(cfg));
    IoOfAppend(a, UnzipProbe());
    ProgressOfAppend(Opening(cfg), SpaceProbe(cfg));
    ProgressOfAppend(a, UnzipProbe());
    TransfersOfNone(pre);
    GateStop(pre, UnzipMissing);
  }

  /** A run stopped by a gate: only the reached probes, only the passed gates' progress
      values, no transfer, and `Terminate` as its one terminal event. */
  lemma RunStoppedAtGate(cfg: Config, env: Env)
    requires FailedGate(cfg, env).Some?
    ensures var t := Run(cfg, env);
      && IoOf(t) == GateIo(cfg, env)
      && ProgressOf(t) == GateValues(cfg, env)
      && TransfersOf(t) == []
      && EndsOnce(t)
      && t[|t| - 1] == Terminate
  {
    match FailedGate(cfg, env)
    case Some(NotWritable) => {
      StoppedNotWritable(cfg, env);
    }
    case Some(NoSpace) => {
      StoppedNoSpace(cfg, env);
    }
    case Some(NoUnzip) => {
      StoppedNoUnzip(cfg, env);
    }
  }

  /** The prefix of a run past the gates: every probe, the directory creation and the
      values 0 to 40, and no transfer or terminal event. */
  lemma GatePrefixFacts(cfg: Config, env: Env)
    requires PrerequisitesPass(cfg, env)
    ensures var c := Opening(cfg) + SpaceProbe(cfg) + UnzipProbe() + Preparation(cfg);
      && IoOf(c) == GateIo(cfg, env)
      && ProgressOf(c) == GateValues(cfg, env)
      && TransfersOf(c) == []
      && forall p :: 0 <= p < |c| ==> !c[p].IsTerminal()
  {
    ChunkFacts(cfg);
    var a := Opening(cfg) + SpaceProbe(cfg);
    var b := a + UnzipProbe();
    var c := b + Preparation(cfg);
    IoOfAppend(Opening(cfg), SpaceProbe(cfg));
    IoOfAppend(a, UnzipProbe());
    IoOfAppend(b, Preparation(cfg));
    ProgressOfAppend(Opening(cfg), SpaceProbe(cfg));
    ProgressOfAppend(a, UnzipProbe());
    ProgressOfAppend(b, Preparation(cfg));
    TransfersOfNone(c);
  }

  /** A run past the gates: every probe in order and the values 0 to 40, then the rest of
      the run from the list fetch on. */
  lemma RunPassedGates(cfg: Config, env: Env)
    requires PrerequisitesPass(cfg, env)
    ensures var t := Run(cfg, env);
      && IoOf(t) == GateIo(cfg, env) + IoOf(Install(cfg, env))
      && ProgressOf(t) == GateValues(cfg, env) + ProgressOf(Install(cfg, env))
      && TransfersOf(t) == TransfersOf(Install(cfg, env))
      && EndsOnce(t)
      && t[|t| - 1] == Install(cfg, env)[|Install(cfg, env)| - 1]
  {
    var install := Install(cfg, env);
    var c := Opening(cfg) + SpaceProbe(cfg) + UnzipProbe() + Preparation(cfg);
    RunPastGates(cfg, env);
    GatePrefixFacts(cfg, env);
    IoOfAppend(c, install);
    ProgressOfAppend(c, install);
    TransfersOfAppend(c, install);
    InstallEnds(cfg, env);
    EndsOnceAppend(c, install);
  }
}

=== FILE: installer_theorems.dfy ===
/**
  The promises of `runInstallation`, each stated over the whole trace of `Installer.Run`
  against an independent description: the gate order, the space threshold, the progress
  values, the abort at the first failing entry, the extraction rules, the error reported,
  and the single end of the run.
 */
module InstallerTheorems {
  import opened Wrappers
  import opened Manifest
  import opened Transfer
  import opened Tools
  import opened Trace
  import opened Environment
  import opened Installer
  import opened InstallerProofs
  import opened Plans

  /**
    The gates run in order and the run stops at the first that fails: the I/O requests
    open with exactly the probes of the gates reached, nothing follows a failed gate, and
    the file list is fetched exactly when all three prerequisites hold.
   */
  lemma PrerequisiteGates(cfg: Config, env: Env)
    ensures FailedGate(cfg, env).None? <==> PrerequisitesPass(cfg, env)
    ensures var io := IoOf(Run(cfg, env));
      var gates := GateIo(cfg, env);
      && |gates| <= |io|
      && io[..|gates|] == gates
      && (FailedGate(cfg, env).Some? <==> io == gates)
      && (FetchFileList(ManifestURL(cfg.server)) in io <==> PrerequisitesPass(cfg, env))
  {
    if FailedGate(cfg, env).Some? {
      StoppedGateIo(cfg, env);
    } else {
      PassedGateIo(cfg, env);
    }
  }

  /** The I/O of a run stopped by a gate: the probes reached, and no list fetch. */
  lemma StoppedGateIo(cfg: Config, env: Env)
    requires FailedGate(cfg, env).Some?
    ensures IoOf(Run(cfg, env)) == GateIo(cfg, env)
    ensures FetchFileList(ManifestURL(cfg.server)) !in GateIo(cfg, env)
  {
    RunStoppedAtGate(cfg, env);
  }

  /** The I/O of a run past the gates: every probe, the directory creation, then the fetch. */
  lemma PassedGateIo(cfg: Config, env: Env)
    requires FailedGate(cfg, env).None?
    ensures var io := IoOf(Run(cfg, env));
      var gates := GateIo(cfg, env);
      && |gates| < |io|
      && io[..|gates|] == gates
      && io[|gates|] == FetchFileList(ManifestURL(cfg.server))
  {
    var install := IoOf(Install(cfg, env));
    RunPassedGates(cfg, env);
    InstallIo(cfg, env);
    assert install[0] == FetchFileList(ManifestURL(cfg.server));
  }

  /** Past a writable directory, the `which unzip` lookup happens exactly when the free byte
      count reaches the threshold; a failed free-space query counts as no space at all. */
  lemma SpaceGateDecides(cfg: Config, env: Env)
    requires env.writable
    ensures LookupUnzip in IoOf(Run(cfg, env))
            <==> AvailableDiskSpace(env.freeSpace) >= cfg.requiredSpace
    ensures env.freeSpace.None? && cfg.requiredSpace > 0 ==>
              IoOf(Run(cfg, env)) == [ProbeWritable(cfg.dir), ProbeFreeSpace(cfg.dir)]
  {
    var io := IoOf(Run(cfg, env));
    PrerequisiteGates(cfg, env);
    if AvailableDiskSpace(env.freeSpace) >= cfg.requiredSpace {
      assert io[2] == GateIo(cfg, env)[2];
    }
  }

  /** The threshold as written: exactly `20 * 1024 * 1024` free bytes pass, one byte less
      does not, and so does 1 GiB, far below the 20 GB the installer announces. */
  lemma ThresholdAsWritten(env: Env)
    requires env.writable
    ensures env.freeSpace == Some(20 * 1024 * 1024) ==> LookupUnzip in IoOf(Run(InstallerConfig, env))
    ensures env.freeSpace == Some(20 * 1024 * 1024 - 1) ==> LookupUnzip !in IoOf(Run(InstallerConfig, env))
    ensures env.freeSpace == Some(1024 * 1024 * 1024) ==> LookupUnzip in IoOf(Run(InstallerConfig, env))
  {
    SpaceGateDecides(InstallerConfig, env);
  }

  /** The announced threshold: 1 GiB free stops the run at the space gate, 20 GiB passes it. */
  lemma IntendedThreshold(env: Env)
    requires env.writable
    ensures env.freeSpace == Some(1024 * 1024 * 1024) ==>
              IoOf(Run(IntendedConfig, env)) == [ProbeWritable("/var/tmp"), ProbeFreeSpace("/var/tmp")]
    ensures env.freeSpace == Some(20 * 1024 * 1024 * 1024 - 1) ==> LookupUnzip !in IoOf(Run(IntendedConfig, env))
    ensures env.freeSpace == Some(20 * 1024 * 1024 * 1024) ==> LookupUnzip in IoOf(Run(IntendedConfig, env))
  {
    SpaceGateDecides(IntendedConfig, env);
    PrerequisiteGates(IntendedConfig, env);
  }

  /** The run reaches the loop and every entry succeeds exactly when no entry fails. */
  lemma SucceedsIffNoFailure(cfg: Config, env: Env)
    requires ReachesTransfers(cfg, env)
    ensures Succeeds(cfg, env)
            <==> FirstFailure(cfg, env, env.fileList.value.files) == |env.fileList.value.files|
  {
    var files := env.fileList.value.files;
    var k := FirstFailure(cfg, env, files);
    if k < |files| {
      assert !EntrySucceeds(cfg, env, files[k].name);
    }
  }

  /** The loop's values never decrease, stay within 40 and 100, and reach 100 exactly when no
      entry fails. */
  lemma LoopValuesFacts(cfg: Config, env: Env, files: seq<FileInfo>)
    ensures var v := LoopValues(cfg, env, files);
      && NonDecreasing(v)
      && (forall k :: 0 <= k < |v| ==> 40.0 <= v[k] <= 100.0)
      && (100.0 in v <==> FirstFailure(cfg, env, files) == |files|)
  {
    var n := |files|;
    var a := Attempted(cfg, env, files);
    var c := Checkpoints(0, a, n);
    var last: seq<real> := if FirstFailure(cfg, env, files) == n then [100.0] else [];
    CheckpointsNonDecreasing(0, a, n);
    assert forall k :: 0 <= k < |c| ==> 40.0 <= c[k] < 100.0 by {
      forall k | 0 <= k < |c|
        ensures 40.0 <= c[k] < 100.0
      {
        assert c[k] == ProgressBefore(k, n);
      }
    }
    NonDecreasingAppend(c, last);
    assert LoopValues(cfg, env, files) == c + last;
  }

  /** The values of the gates passed never decrease and stay within 0 and 40. */
  lemma GateValuesFacts(cfg: Config, env: Env)
    ensures var g := GateValues(cfg, env);
      && NonDecreasing(g)
      && (forall k :: 0 <= k < |g| ==> 0.0 <= g[k] <= 40.0)
  {
  }

  /** A run that does not reach the loop reports only the values of the gates it passed. */
  lemma ProgressWithoutLoop(cfg: Config, env: Env)
    requires !ReachesTransfers(cfg, env)
    ensures ProgressOf(Run(cfg, env)) == GateValues(cfg, env)
  {
    if FailedGate(cfg, env).Some? {
      RunStoppedAtGate(cfg, env);
    } else {
      RunPassedGates(cfg, env);
      InstallProgress(cfg, env);
    }
  }

  /** A run that reaches the loop reports 0 to 40, then the loop's values. */
  lemma ProgressWithLoop(cfg: Config, env: Env)
    requires ReachesTransfers(cfg, env)
    ensures ProgressOf(Run(cfg, env))
         == [0.0, 10.0, 20.0, 30.0, 40.0] + LoopValues(cfg, env, env.fileList.value.files)
  {
    RunPassedGates(cfg, env);
    InstallProgress(cfg, env);
  }

  /**
    The progress bar: its values never decrease and stay within 0 and 100; they are 0, 10,
    20, 30, 40 for the gates passed, then `40 + i / n * 60` before each entry started, and
    100 appears exactly when the whole installation succeeds. A run that never reaches the
    loop never shows more than 40.
   */
  lemma ProgressReport(cfg: Config, env: Env)
    ensures var p := ProgressOf(Run(cfg, env));
      && NonDecreasing(p)
      && (forall k :: 0 <= k < |p| ==> 0.0 <= p[k] <= 100.0)
      && (100.0 in p <==> Succeeds(cfg, env))
      && (!ReachesTransfers(cfg, env) ==> forall k :: 0 <= k < |p| ==> p[k] <= 40.0)
      && (ReachesTransfers(cfg, env) ==>
            var files := env.fileList.value.files;
            p == [0.0, 10.0, 20.0, 30.0, 40.0]
                 + Checkpoints(0, Attempted(cfg, env, files), |files|)
                 + (if Succeeds(cfg, env) then [100.0] else []))
  {
    var p := ProgressOf(Run(cfg, env));
    if ReachesTransfers(cfg, env) {
      var files := env.fileList.value.files;
      var gates: seq<real> := [0.0, 10.0, 20.0, 30.0, 40.0];
      var v := LoopValues(cfg, env, files);
      ProgressWithLoop(cfg, env);
      LoopValuesFacts(cfg, env, files);
      SucceedsIffNoFailure(cfg, env);
      NonDecreasingAppend(gates, v);
      assert 100.0 !in gates;
    } else {
      ProgressWithoutLoop(cfg, env);
      GateValuesFacts(cfg, env);
    }
  }

  /** The transfers of the whole run: the planned ones of the entries attempted, or none if
      the loop is not reached. */
  lemma RunTransfers(cfg: Config, env: Env)
    ensures TransfersOf(Run(cfg, env))
         == (if ReachesTransfers(cfg, env)
             then PlannedTransfers(cfg, env, env.fileList.value.files[..Attempted(cfg, env, env.fileList.value.files)], false)
             else [])
  {
    if FailedGate(cfg, env).Some? {
      RunStoppedAtGate(cfg, env);
    } else {
      RunPassedGates(cfg, env);
      InstallTransfers(cfg, env);
    }
  }

  /**
    A failed or empty file list stops the run after the fetch: no transfer, the progress bar
    left at 40, the error (or, for an empty list, the warning) reported, then the end.
   */
  lemma ListFailureStops(cfg: Config, env: Env)
    requires PrerequisitesPass(cfg, env)
    requires env.fileList.Failure? || |env.fileList.value.files| == 0
    ensures var t := Run(cfg, env);
      && TransfersOf(t) == []
      && IoOf(t) == GateIo(cfg, env) + [FetchFileList(ManifestURL(cfg.server))]
      && ProgressOf(t) == [0.0, 10.0, 20.0, 30.0, 40.0]
      && |t| >= 2
      && t[|t| - 1] == Terminate
      && t[|t| - 2] == Message(if env.fileList.Failure? then FileListFailed(env.fileList.error) else NoFilesOnServer)
  {
    ListFailureRequests(cfg, env);
    ListFailureEnding(cfg, env);
  }

  /** What a failed or empty list leaves of the run after the gates: the fetch, the report,
      the end. */
  lemma ListFailureTail(cfg: Config, env: Env)
    requires env.fileList.Failure? || |env.fileList.value.files| == 0
    ensures var install := Install(cfg, env);
      && install
         == [Io(FetchFileList(ManifestURL(cfg.server))),
             Message(if env.fileList.Failure? then FileListFailed(env.fileList.error) else NoFilesOnServer),
             Terminate]
      && IoOf(install) == [FetchFileList(ManifestURL(cfg.server))]
      && TransfersOf(install) == []
      && ProgressOf(install) == []
  {
    var install := Install(cfg, env);
    IoOfSingle(install, 0);
    TransfersOfNone(install);
    ProgressOfNone(install);
  }

  lemma ListFailureRequests(cfg: Config, env: Env)
    requires PrerequisitesPass(cfg, env)
    requires env.fileList.Failure? || |env.fileList.value.files| == 0
    ensures var t := Run(cfg, env);
      && TransfersOf(t) == []
      && IoOf(t) == GateIo(cfg, env) + [FetchFileList(ManifestURL(cfg.server))]
      && ProgressOf(t) == [0.0, 10.0, 20.0, 30.0, 40.0]
  {
    RunPassedGates(cfg, env);
    ListFailureTail(cfg, env);
    assert GateValues(cfg, env) + [] == GateValues(cfg, env);
  }

  lemma ListFailureEnding(cfg: Config, env: Env)
    requires PrerequisitesPass(cfg, env)
    requires env.fileList.Failure? || |env.fileList.value.files| == 0
    ensures var t := Run(cfg, env);
      && |t| >= 2
      && t[|t| - 1] == Terminate
      && t[|t| - 2] == Message(if env.fileList.Failure? then FileListFailed(env.fileList.error) else NoFilesOnServer)
  {
    var t := Run(cfg, env);
    var c := Opening(cfg) + SpaceProbe(cfg) + UnzipProbe() + Preparation(cfg);
    RunPastGates(cfg, env);
    ListFailureTail(cfg, env);
    assert t == c + Install(cfg, env);
    assert t[|t| - 2] == Install(cfg, env)[1];
  }

  /**
    Abort on first failure: the run downloads the entries in list order, one request per
    entry, up to and including the first that fails, and no further; every downloaded
    entry but the last succeeded, and if some entry was not downloaded, the last
    downloaded one failed. A run that does not reach the loop downloads nothing.
   */
  lemma AbortOnFirstFailure(cfg: Config, env: Env)
    ensures var d := DownloadsIn(TransfersOf(Run(cfg, env)));
      && (!ReachesTransfers(cfg, env) ==> d == [])
      && (ReachesTransfers(cfg, env) ==>
            var files := env.fileList.value.files;
            && 0 < |d| <= |files|
            && (forall j :: 0 <= j < |d| ==> d[j] == DownloadOf(cfg, files[j].name))
            && (forall j :: 0 <= j < |d| - 1 ==> EntrySucceeds(cfg, env, files[j].name))
            && (|d| < |files| ==> !EntrySucceeds(cfg, env, files[|d| - 1].name)))
  {
    RunTransfers(cfg, env);
    if ReachesTransfers(cfg, env) {
      var files := env.fileList.value.files;
      var n := Attempted(cfg, env, files);
      var attempted := files[..n];
      var d := DownloadsIn(TransfersOf(Run(cfg, env)));
      PlannedDownloads(cfg, env, attempted, false);
      assert d == DownloadsIn(PlannedTransfers(cfg, env, attempted, false));
      assert |d| == n;
      forall j | 0 <= j < |d|
        ensures d[j] == DownloadOf(cfg, files[j].name)
      {
        assert attempted[j] == files[j];
      }
      AttemptedMeaning(cfg, env, files);
    }
  }

  /** Attempting up to and including the first failure: a positive count when the list is
      non-empty, every attempted entry but the last succeeds, and the last failed if the
      attempt stopped short of the end. */
  lemma AttemptedMeaning(cfg: Config, env: Env, files: seq<FileInfo>)
    ensures var n := Attempted(cfg, env, files);
      && n <= |files|
      && (|files| > 0 ==> n > 0)
      && (forall j :: 0 <= j < n - 1 ==> EntrySucceeds(cfg, env, files[j].name))
      && (n < |files| ==> !EntrySucceeds(cfg, env, files[n - 1].name))
  {
  }

  /**
    Extraction rules over the whole run: archives that arrived are extracted into the working
    directory and nothing else is; an archive is removed exactly when its extraction exited
    with 0; every removal directly follows the extraction of the same path and every
    extraction directly follows the download to that path; an entry whose name does not end
    in ".zip" is never extracted or removed.
   */
  lemma ExtractionRules(cfg: Config, env: Env)
    requires ReachesTransfers(cfg, env)
    ensures var files := env.fileList.value.files;
      var tr := TransfersOf(Run(cfg, env));
      var attempted := files[..Attempted(cfg, env, files)];
      && UnzipsExactly(cfg, env, attempted, tr, false)
      && RemovesExactly(cfg, env, attempted, tr, false)
      && ExtractionOrdered(cfg, tr)
      && (forall j :: 0 <= j < |files| && !IsArchive(files[j].name) ==>
            && Unzip(Destination(cfg.dir, files[j].name), cfg.dir) !in tr
            && Remove(Destination(cfg.dir, files[j].name)) !in tr)
  {
    var files := env.fileList.value.files;
    var attempted := files[..Attempted(cfg, env, files)];
    RunTransfers(cfg, env);
    PlannedUnzips(cfg, env, attempted, false);
    PlannedRemoves(cfg, env, attempted, false);
    PlannedOrdered(cfg, env, attempted, false);
    forall j | 0 <= j < |files| && !IsArchive(files[j].name)
      ensures Unzip(Destination(cfg.dir, files[j].name), cfg.dir) !in TransfersOf(Run(cfg, env))
      ensures Remove(Destination(cfg.dir, files[j].name)) !in TransfersOf(Run(cfg, env))
    {
      NonArchivesUntouched(cfg, env, attempted, files[j].name, false);
    }
  }

  /** The run ends exactly once: in `Completed` exactly when it succeeds, in `Trap` exactly
      when the prerequisites pass and summing the sizes overflows, else in `Terminate`. */
  lemma RunEnds(cfg: Config, env: Env)
    ensures var t := Run(cfg, env);
      && EndsOnce(t)
      && (t[|t| - 1] == Completed <==> Succeeds(cfg, env))
      && (t[|t| - 1] == Trap <==> PrerequisitesPass(cfg, env) && ListOverflows(env))
      && (t[|t| - 1] == Terminate <==> !Succeeds(cfg, env) && !(PrerequisitesPass(cfg, env) && ListOverflows(env)))
  {
    if FailedGate(cfg, env).Some? {
      RunStoppedAtGate(cfg, env);
    } else {
      RunPassedGates(cfg, env);
      InstallEnds(cfg, env);
      if ListUsable(env) {
        SucceedsIffNoFailure(cfg, env);
      }
    }
  }

  /** What a run that ends in `Terminate` reports just before: the first failed gate, the
      list fetch error, the empty list, or the first failing entry with its error. */
  function Cause(cfg: Config, env: Env): (s: Status)
    requires !Succeeds(cfg, env) && !(PrerequisitesPass(cfg, env) && ListOverflows(env))
    ensures s.ProcessingFailed? ==> ReachesTransfers(cfg, env)
  {
    match FailedGate(cfg, env)
    case Some(NotWritable) => DirectoryNotWritable(cfg.dir)
    case Some(NoSpace) => InsufficientSpace(AvailableDiskSpace(env.freeSpace))
    case Some(NoUnzip) => UnzipMissing
    case None =>
      match env.fileList
      case Failure(e) => FileListFailed(e)
      case Success(list) =>
        if |list.files| == 0 then NoFilesOnServer
        else
          SucceedsIffNoFailure(cfg, env);
          FailureMessage(cfg, env, list.files)
  }

  /** A failing entry's events end with its error message, then `Terminate`. */
  lemma EntryFailureReported(cfg: Config, env: Env, files: seq<FileInfo>, i: nat)
    requires i < |files| && !EntrySucceeds(cfg, env, files[i].name)
    ensures var ev := EntryEvents(cfg, env, files, i);
      && |ev| >= 2
      && ev[|ev| - 1] == Terminate
      && ev[|ev| - 2] == Message(ProcessingFailed(files[i].name, EntryError(cfg, env, files[i].name)))
  {
  }

  /** The second-to-last event of `t` reports `m`. */
  ghost predicate ReportsBeforeEnd(t: seq<InstallerEvent>, m: Status) {
    |t| >= 2 && t[|t| - 2] == Message(m)
  }

  /** The error message of the first failing entry of `files`. */
  function FailureMessage(cfg: Config, env: Env, files: seq<FileInfo>): (m: Status)
    requires FirstFailure(cfg, env, files) < |files|
    ensures m.ProcessingFailed? && m.name == files[FirstFailure(cfg, env, files)].name
  {
    var k := FirstFailure(cfg, env, files);
    ProcessingFailed(files[k].name, EntryError(cfg, env, files[k].name))
  }

  /** The loop from entry `i` on, when an entry fails, ends with that entry's error message. */
  lemma {:induction false} LoopFailureReported(cfg: Config, env: Env, files: seq<FileInfo>, i: nat)
    requires i <= FirstFailure(cfg, env, files) < |files|
    ensures ReportsBeforeEnd(TransferFrom(cfg, env, files, i), FailureMessage(cfg, env, files))
    decreases |files| - i
  {
    if i < FirstFailure(cfg, env, files) {
      LoopFailureReported(cfg, env, files, i + 1);
      ReportStep(cfg, env, files, i);
    } else {
      ReportAtFailure(cfg, env, files, i);
    }
  }

  /** A succeeding entry leaves the error message at the end of the rest of the loop in place. */
  lemma ReportStep(cfg: Config, env: Env, files: seq<FileInfo>, i: nat)
    requires i < FirstFailure(cfg, env, files) < |files|
    requires ReportsBeforeEnd(TransferFrom(cfg, env, files, i + 1), FailureMessage(cfg, env, files))
    ensures ReportsBeforeEnd(TransferFrom(cfg, env, files, i), FailureMessage(cfg, env, files))
  {
    var t := TransferFrom(cfg, env, files, i);
    var rest := TransferFrom(cfg, env, files, i + 1);
    TransferStep(cfg, env, files, i);
    assert t[|t| - 2] == rest[|rest| - 2];
  }

  /** The failing entry's own events end the loop with its error message. */
  lemma ReportAtFailure(cfg: Config, env: Env, files: seq<FileInfo>, i: nat)
    requires i == FirstFailure(cfg, env, files) < |files|
    ensures ReportsBeforeEnd(TransferFrom(cfg, env, files, i), FailureMessage(cfg, env, files))
  {
    EntryFailureReported(cfg, env, files, i);
    TransferStep(cfg, env, files, i);
    assert EntryEvents(cfg, env, files, i) + [] == EntryEvents(cfg, env, files, i);
  }

  /** Every run that ends in `Terminate` reports its cause just before. */
  lemma FailureReported(cfg: Config, env: Env)
    requires !Succeeds(cfg, env) && !(PrerequisitesPass(cfg, env) && ListOverflows(env))
    ensures var t := Run(cfg, env);
      |t| >= 2 && t[|t| - 1] == Terminate && t[|t| - 2] == Message(Cause(cfg, env))
  {
    match FailedGate(cfg, env)
    case Some(NotWritable) => {
      RunNotWritable(cfg, env);
    }
    case Some(NoSpace) => {
      RunNoSpace(cfg, env);
    }
    case Some(NoUnzip) => {
      RunNoUnzip(cfg, env);
    }
    case None => {
      if ListUsable(env) {
        EntryFailureEndsRun(cfg, env);
      } else {
        ListFailureEnding(cfg, env);
      }
    }
  }

  /** A run that reaches the loop and fails ends with the failing entry's error message. */
  lemma EntryFailureEndsRun(cfg: Config, env: Env)
    requires ReachesTransfers(cfg, env) && !Succeeds(cfg, env)
    ensures var t := Run(cfg, env);
      |t| >= 2 && t[|t| - 1] == Terminate && t[|t| - 2] == Message(Cause(cfg, env))
  {
    var t := Run(cfg, env);
    var files := env.fileList.value.files;
    var loop := TransferFrom(cfg, env, files, 0);
    RunEndsWithLoop(cfg, env);
    SucceedsIffNoFailure(cfg, env);
    LoopFailureReported(cfg, env, files, 0);
    LoopEnds(cfg, env, files, 0);
    assert t[|t| - 1] == loop[|loop| - 1];
    assert t[|t| - 2] == loop[|loop| - 2];
  }

  /** A run that reaches the loop ends with the loop's events. */
  lemma RunEndsWithLoop(cfg: Config, env: Env)
    requires ReachesTransfers(cfg, env)
    ensures var t := Run(cfg, env);
      var loop := TransferFrom(cfg, env, env.fileList.value.files, 0);
      |loop| < |t| && t[|t| - |loop|..] == loop
  {
    var t := Run(cfg, env);
    var install := Install(cfg, env);
    var loop := TransferFrom(cfg, env, env.fileList.value.files, 0);
    var prefix := Opening(cfg) + SpaceProbe(cfg) + UnzipProbe() + Preparation(cfg) + install[..2];
    RunPastGates(cfg, env);
    InstallLoop(cfg, env);
    assert install == install[..2] + loop;
    assert t == prefix + loop;
  }

  /** The download loop reads only the download and extraction outcomes: two hosts that
      agree on those agree on the loop. */
  lemma {:induction false} LoopIgnoresDiscarded(cfg: Config, env: Env, other: Env, files: seq<FileInfo>, i: nat)
    requires i <= |files|
    requires other.download == env.download && other.unzip == env.unzip
    ensures TransferFrom(cfg, other, files, i) == TransferFrom(cfg, env, files, i)
    decreases |files| - i
  {
    if i < |files| {
      LoopIgnoresDiscarded(cfg, env, other, files, i + 1);
      DiscardedStep(cfg, env, files, i, other);
    }
  }

  /** One entry reads only the download and extraction outcomes, so two hosts that agree on
      those and on the rest of the loop agree on the loop from this entry on. */
  lemma DiscardedStep(cfg: Config, env: Env, files: seq<FileInfo>, i: nat, other: Env)
    requires i < |files|
    requires other.download == env.download && other.unzip == env.unzip
    requires TransferFrom(cfg, other, files, i + 1) == TransferFrom(cfg, env, files, i + 1)
    ensures TransferFrom(cfg, other, files, i) == TransferFrom(cfg, env, files, i)
  {
    assert EntryOutcome(cfg, other, files[i].name) == EntryOutcome(cfg, env, files[i].name);
    TransferStep(cfg, other, files, i);
    TransferStep(cfg, env, files, i);
  }

  /** The results of the directory creation and of the archive removal (both `try?`) change
      nothing: in particular `ZipRemoved` is reported whether or not the removal worked. */
  lemma IgnoredOutcomes(cfg: Config, env: Env, removes: string -> bool, creates: bool)
    ensures Run(cfg, env.(removes := removes, createsDirectory := creates)) == Run(cfg, env)
  {
    if env.fileList.Success? {
      var other := env.(removes := removes, createsDirectory := creates);
      LoopIgnoresDiscarded(cfg, env, other, env.fileList.value.files, 0);
    }
  }

  /** With a usable list, the total announced before the loop is the sum of the declared
      sizes of all entries. */
  lemma TotalAnnounced(cfg: Config, env: Env)
    requires ReachesTransfers(cfg, env)
    ensures var files := env.fileList.value.files;
      Message(TotalToDownload(PrefixSize(files, |files|))) in Run(cfg, env)
  {
    RunPastGates(cfg, env);
    InstallLoop(cfg, env);
    var install := Install(cfg, env);
    assert install[1] in Run(cfg, env);
  }
}

=== FILE: manifest.dfy ===
/**
  The file list the server publishes (`FileInfo` / `FileList`) and the two computations the
  client performs on it before downloading: the archive-suffix test and the total size.
 */
module Manifest {
  import opened Wrappers

  /** One entry of the server's list. `size` is the declared byte count (a Swift `Int64`);
      it is informational only and never checked against what is downloaded. */
  datatype FileInfo = FileInfo(name: string, size: int, modified: real)

  datatype FileList = FileList(files: seq<FileInfo>)

  /** Why `getFileList` threw: the read of `<server>/files` failed, or its body did not
      decode as a `FileList`. */
  datatype FetchError = NetworkError | DecodeError

  const ArchiveSuffix: string := ".zip"

  /** Swift's `hasSuffix`, compared on code points rather than grapheme clusters. */
  predicate HasSuffix(s: string, suffix: string) {
    |suffix| <= |s| && s[|s| - |suffix|..] == suffix
  }

  /** Entries and directory entries with this name are treated as zip archives. */
  predicate IsArchive(name: string) {
    HasSuffix(name, ArchiveSuffix)
  }

  const Int64Min: int := -0x8000_0000_0000_0000
  const Int64Max: int := 0x7FFF_FFFF_FFFF_FFFF

  predicate InInt64(x: int) {
    Int64Min <= x <= Int64Max
  }

  /** The exact sum of the declared sizes of the first `k` entries. */
  function PrefixSize(files: seq<FileInfo>, k: nat): int
    requires k <= |files|
  {
    if k == 0 then 0 else PrefixSize(files, k - 1) + files[k - 1].size
  }

  /**
    `files.reduce(0) { $0 + $1.size }` over the first `k` entries with Swift's checked
    `Int64` addition: `None` when one of the additions traps.
   */
  function CheckedPrefixSize(files: seq<FileInfo>, k: nat): (r: Option<int>)
    requires k <= |files|
    ensures r.Some? <==> forall j :: 1 <= j <= k ==> InInt64(PrefixSize(files, j))
    ensures r.Some? ==> r.value == PrefixSize(files, k)
  {
    if k == 0 then Some(0)
    else
      match CheckedPrefixSize(files, k - 1)
      case None =>
        OverflowPersists(files, k);
        None
      case Some(sum) =>
        if InInt64(sum + files[k - 1].size) then Some(sum + files[k - 1].size)
        else
          assert !InInt64(PrefixSize(files, k));
          assert !(1 <= k <= k ==> InInt64(PrefixSize(files, k)));
          None
  }

  lemma OverflowPersists(files: seq<FileInfo>, k: nat)
    requires 0 < k <= |files|
    requires !forall j :: 1 <= j <= k - 1 ==> InInt64(PrefixSize(files, j))
    ensures !forall j :: 1 <= j <= k ==> InInt64(PrefixSize(files, j))
  {
    var j :| 1 <= j <= k - 1 && !InInt64(PrefixSize(files, j));
  }

  /** The same fold written as the loop the Swift runtime executes. */
  method TotalSize(files: seq<FileInfo>) returns (total: int, overflowed: bool)
    ensures overflowed <==> CheckedPrefixSize(files, |files|).None?
    ensures !overflowed ==> total == PrefixSize(files, |files|)
  {
    total := 0;
    var i := 0;
    while i < |files|
      invariant 0 <= i <= |files|
      invariant CheckedPrefixSize(files, i) == Some(total)
    {
      if !InInt64(total + files[i].size) {
        assert CheckedPrefixSize(files, i + 1).None?;
        NoneStaysNone(files, i + 1, |files|);
        return total, true;
      }
      total := total + files[i].size;
      i := i + 1;
    }
    overflowed := false;
  }

  /** Once the running total has trapped, no longer prefix recovers. */
  lemma {:induction false} NoneStaysNone(files: seq<FileInfo>, k: nat, m: nat)
    requires k <= m <= |files|
    requires CheckedPrefixSize(files, k).None?
    ensures CheckedPrefixSize(files, m).None?
    decreases m - k
  {
    if k < m {
      assert CheckedPrefixSize(files, k + 1).None?;
      NoneStaysNone(files, k + 1, m);
    }
  }

  lemma {:induction false} PrefixSizeMonotone(files: seq<FileInfo>, j: nat, k: nat)
    requires forall i :: 0 <= i < |files| ==> files[i].size >= 0
    requires j <= k <= |files|
    ensures 0 <= PrefixSize(files, j) <= PrefixSize(files, k)
    decreases k
  {
    if j < k {
      PrefixSizeMonotone(files, j, k - 1);
    } else if k > 0 {
      PrefixSizeMonotone(files, 0, k - 1);
    }
  }

  /**
    With non-negative declared sizes, the checked fold traps exactly when the true total
    exceeds `Int64.max`; otherwise the logged total is the sum of all sizes.
   */
  lemma TotalOfNonNegativeSizes(files: seq<FileInfo>)
    requires forall i :: 0 <= i < |files| ==> files[i].size >= 0
    ensures CheckedPrefixSize(files, |files|).Some? <==> PrefixSize(files, |files|) <= Int64Max
    ensures CheckedPrefixSize(files, |files|).Some? ==>
              CheckedPrefixSize(files, |files|).value == PrefixSize(files, |files|)
  {
    if PrefixSize(files, |files|) <= Int64Max {
      forall j | 1 <= j <= |files|
        ensures InInt64(PrefixSize(files, j))
      {
        PrefixSizeMonotone(files, j, |files|);
      }
    }
  }
}

=== FILE: plans.dfy ===
/**
  Facts about `PlannedTransfers`, the transfer requests of processing a list of entries one
  after another: one download per entry in order, an extraction exactly for the archives
  that arrived, a removal exactly after an extraction that exited with 0. The installer
  does not check that a downloaded file is present before extracting it (`checkPresence`
  false); the test harness does (`checkPresence` true).
 */
module Plans {
  import opened Wrappers
  import opened Manifest
  import opened Transfer
  import opened Tools
  import opened Trace
  import opened Environment

  /** The extraction is requested exactly for the archive entries that arrived. */
  ghost predicate UnzipsExactly(cfg: Config, env: Env, files: seq<FileInfo>, io: seq<IoAction>, checkPresence: bool) {
    && (forall j :: 0 <= j < |files| && IsArchive(files[j].name) && Arrived(cfg, env, files[j].name, checkPresence) ==>
          Unzip(Destination(cfg.dir, files[j].name), cfg.dir) in io)
    && (forall a :: a in io && a.Unzip? ==>
          exists j :: 0 <= j < |files| && IsArchive(files[j].name) && Arrived(cfg, env, files[j].name, checkPresence)
                      && a == Unzip(Destination(cfg.dir, files[j].name), cfg.dir))
  }

  /** The removal is requested exactly for the archive entries whose extraction exited with 0. */
  ghost predicate RemovesExactly(cfg: Config, env: Env, files: seq<FileInfo>, io: seq<IoAction>, checkPresence: bool) {
    && (forall j :: 0 <= j < |files| && IsArchive(files[j].name) && Arrived(cfg, env, files[j].name, checkPresence)
                    && env.unzip(Destination(cfg.dir, files[j].name)) == Exited(0) ==>
          Remove(Destination(cfg.dir, files[j].name)) in io)
    && (forall a :: a in io && a.Remove? ==>
          exists j :: 0 <= j < |files| && IsArchive(files[j].name) && Arrived(cfg, env, files[j].name, checkPresence)
                      && env.unzip(Destination(cfg.dir, files[j].name)) == Exited(0)
                      && a == Remove(Destination(cfg.dir, files[j].name)))
  }

  /** Every removal directly follows the extraction of the same path into the working
      directory, and every extraction directly follows the download to that path. */
  ghost predicate ExtractionOrdered(cfg: Config, io: seq<IoAction>) {
    && (|io| > 0 ==> io[0].Download?)
    && (forall r :: 0 <= r < |io| && io[r].Remove? ==>
          0 < r && io[r - 1] == Unzip(io[r].path, cfg.dir))
    && (forall u :: 0 <= u < |io| && io[u].Unzip? ==>
          0 < u && io[u - 1].Download? && io[u - 1].destination == io[u].archive)
  }

  lemma EntryTransfersShape(cfg: Config, env: Env, name: string, checkPresence: bool)
    ensures var e := EntryTransfers(cfg, env, name, checkPresence);
      var path := Destination(cfg.dir, name);
      && 1 <= |e| <= 3
      && e[0] == DownloadOf(cfg, name)
      && DownloadsIn(e) == [DownloadOf(cfg, name)]
      && (forall a :: a in e && a.Unzip? <==>
            a == Unzip(path, cfg.dir) && IsArchive(name) && Arrived(cfg, env, name, checkPresence))
      && (forall a :: a in e && a.Remove? <==>
            a == Remove(path) && IsArchive(name) && Arrived(cfg, env, name, checkPresence)
            && env.unzip(path) == Exited(0))
      && ExtractionOrdered(cfg, e)
  {
    var e := EntryTransfers(cfg, env, name, checkPresence);
    DownloadsInAppend([e[0]], e[1..]);
    assert e == [e[0]] + e[1..];
    if |e| > 1 {
      DownloadsInAppend([e[1]], e[2..]);
      assert e[1..] == [e[1]] + e[2..];
    }
  }

  /** One download per entry, in list order. */
  lemma {:induction false} PlannedDownloads(cfg: Config, env: Env, files: seq<FileInfo>, checkPresence: bool)
    ensures var d := DownloadsIn(PlannedTransfers(cfg, env, files, checkPresence));
      && |d| == |files|
      && forall j :: 0 <= j < |files| ==> d[j] == DownloadOf(cfg, files[j].name)
  {
    if |files| > 0 {
      var e := EntryTransfers(cfg, env, files[0].name, checkPresence);
      var rest := PlannedTransfers(cfg, env, files[1..], checkPresence);
      EntryTransfersShape(cfg, env, files[0].name, checkPresence);
      PlannedDownloads(cfg, env, files[1..], checkPresence);
      DownloadsInAppend(e, rest);
    }
  }

  lemma {:induction false} PlannedUnzips(cfg: Config, env: Env, files: seq<FileInfo>, checkPresence: bool)
    ensures UnzipsExactly(cfg, env, files, PlannedTransfers(cfg, env, files, checkPresence), checkPresence)
  {
    var io := PlannedTransfers(cfg, env, files, checkPresence);
    if |files| > 0 {
      var e := EntryTransfers(cfg, env, files[0].name, checkPresence);
      var rest := PlannedTransfers(cfg, env, files[1..], checkPresence);
      assert io == e + rest;
      EntryTransfersShape(cfg, env, files[0].name, checkPresence);
      PlannedUnzips(cfg, env, files[1..], checkPresence);
      forall j | 0 <= j < |files| && IsArchive(files[j].name) && Arrived(cfg, env, files[j].name, checkPresence)
        ensures Unzip(Destination(cfg.dir, files[j].name), cfg.dir) in io
      {
        if j > 0 {
          assert files[1..][j - 1] == files[j];
        }
      }
      forall a | a in io && a.Unzip?
        ensures exists j :: 0 <= j < |files| && IsArchive(files[j].name) && Arrived(cfg, env, files[j].name, checkPresence)
                            && a == Unzip(Destination(cfg.dir, files[j].name), cfg.dir)
      {
        if a in e {
          assert IsArchive(files[0].name);
        } else {
          assert a in rest;
          var j :| 0 <= j < |files[1..]| && IsArchive(files[1..][j].name)
                   && Arrived(cfg, env, files[1..][j].name, checkPresence)
                   && a == Unzip(Destination(cfg.dir, files[1..][j].name), cfg.dir);
          assert files[1..][j] == files[j + 1];
        }
      }
    }
  }

  lemma {:induction false} PlannedRemoves(cfg: Config, env: Env, files: seq<FileInfo>, checkPresence: bool)
    ensures RemovesExactly(cfg, env, files, PlannedTransfers(cfg, env, files, checkPresence), checkPresence)
  {
    var io := PlannedTransfers(cfg, env, files, checkPresence);
    if |files| > 0 {
      var e := EntryTransfers(cfg, env, files[0].name, checkPresence);
      var rest := PlannedTransfers(cfg, env, files[1..], checkPresence);
      assert io == e + rest;
      EntryTransfersShape(cfg, env, files[0].name, checkPresence);
      PlannedRemoves(cfg, env, files[1..], checkPresence);
      forall j | 0 <= j < |files| && IsArchive(files[j].name) && Arrived(cfg, env, files[j].name, checkPresence)
                 && env.unzip(Destination(cfg.dir, files[j].name)) == Exited(0)
        ensures Remove(Destination(cfg.dir, files[j].name)) in io
      {
        if j > 0 {
          assert files[1..][j - 1] == files[j];
        }
      }
      forall a | a in io && a.Remove?
        ensures exists j :: 0 <= j < |files| && IsArchive(files[j].name) && Arrived(cfg, env, files[j].name, checkPresence)
                            && env.unzip(Destination(cfg.dir, files[j].name)) == Exited(0)
                            && a == Remove(Destination(cfg.dir, files[j].name))
      {
        if a in e {
          assert IsArchive(files[0].name);
        } else {
          assert a in rest;
          var j :| 0 <= j < |files[1..]| && IsArchive(files[1..][j].name)
                   && Arrived(cfg, env, files[1..][j].name, checkPresence)
                   && env.unzip(Destination(cfg.dir, files[1..][j].name)) == Exited(0)
                   && a == Remove(Destination(cfg.dir, files[1..][j].name));
          assert files[1..][j] == files[j + 1];
        }
      }
    }
  }

  lemma OrderedAppend(cfg: Config, a: seq<IoAction>, b: seq<IoAction>)
    requires ExtractionOrdered(cfg, a) && ExtractionOrdered(cfg, b)
    ensures ExtractionOrdered(cfg, a + b)
  {
    var io := a + b;
    forall r | 0 <= r < |io| && io[r].Remove?
      ensures 0 < r && io[r - 1] == Unzip(io[r].path, cfg.dir)
    {
      if r >= |a| {
        assert io[r] == b[r - |a|];
        assert r - |a| > 0;
        assert io[r - 1] == b[r - |a| - 1];
      }
    }
    forall u | 0 <= u < |io| && io[u].Unzip?
      ensures 0 < u && io[u - 1].Download? && io[u - 1].destination == io[u].archive
    {
      if u >= |a| {
        assert io[u] == b[u - |a|];
        assert u - |a| > 0;
        assert io[u - 1] == b[u - |a| - 1];
      }
    }
  }

  lemma {:induction false} PlannedOrdered(cfg: Config, env: Env, files: seq<FileInfo>, checkPresence: bool)
    ensures ExtractionOrdered(cfg, PlannedTransfers(cfg, env, files, checkPresence))
  {
    if |files| > 0 {
      var e := EntryTransfers(cfg, env, files[0].name, checkPresence);
      var rest := PlannedTransfers(cfg, env, files[1..], checkPresence);
      EntryTransfersShape(cfg, env, files[0].name, checkPresence);
      PlannedOrdered(cfg, env, files[1..], checkPresence);
      OrderedAppend(cfg, e, rest);
    }
  }

  /** Entries that are not archives are neither extracted nor removed, even when another
      entry is. */
  lemma NonArchivesUntouched(cfg: Config, env: Env, files: seq<FileInfo>, name: string, checkPresence: bool)
    requires !IsArchive(name)
    ensures Unzip(Destination(cfg.dir, name), cfg.dir) !in PlannedTransfers(cfg, env, files, checkPresence)
    ensures Remove(Destination(cfg.dir, name)) !in PlannedTransfers(cfg, env, files, checkPresence)
  {
    var io := PlannedTransfers(cfg, env, files, checkPresence);
    ArchiveDestination(cfg.dir, name);
    if Unzip(Destination(cfg.dir, name), cfg.dir) in io {
      PlannedUnzips(cfg, env, files, checkPresence);
      var j :| 0 <= j < |files| && IsArchive(files[j].name)
               && Unzip(Destination(cfg.dir, name), cfg.dir) == Unzip(Destination(cfg.dir, files[j].name), cfg.dir);
      DestinationInjective(cfg.dir, name, files[j].name);
    }
    if Remove(Destination(cfg.dir, name)) in io {
      PlannedRemoves(cfg, env, files, checkPresence);
      var j :| 0 <= j < |files| && IsArchive(files[j].name)
               && Remove(Destination(cfg.dir, name)) == Remove(Destination(cfg.dir, files[j].name));
      DestinationInjective(cfg.dir, name, files[j].name);
    }
  }
}

=== FILE: tools.dfy ===
/**
  The two subprocesses the client starts: `/usr/bin/which unzip` to detect the tool, and
  `/usr/bin/unzip -q <archive> -d <dir>` to extract. Each is observed only through whether
  it launched and, if so, its termination status.
 */
module Tools {
  import opened Wrappers

  /** What `Process.run()` followed by `waitUntilExit()` yields: `run()` threw, or the
      process ended with a status. */
  datatype ProcessOutcome = LaunchFailed | Exited(status: int)

  /** Why `unzipFile` threw: `run()` threw, or the tool exited with a non-zero status,
      which becomes the `NSError` code of domain `UnzipError`. */
  datatype UnzipError = UnzipNotLaunched | UnzipExitStatus(code: int)

  /** `isUnzipInstalled`: the lookup counts as success only if it ran and returned 0. */
  function IsUnzipInstalled(lookup: ProcessOutcome): (found: bool)
    ensures found ==> lookup.Exited?
    ensures lookup.Exited? ==> (found <==> lookup.status == 0)
  {
    match lookup
    case LaunchFailed => false
    case Exited(status) => status == 0
  }

  /** The argument vector of `unzipFile`: quiet, the archive, then the target directory. */
  function UnzipArguments(archive: string, dir: string): seq<string> {
    ["-q", archive, "-d", dir]
  }

  /** `unzipFile`'s error mapping: it throws exactly when the tool did not exit with 0. */
  function UnzipResult(run: ProcessOutcome): (r: Outcome<UnzipError>)
    ensures r.Pass? <==> run == Exited(0)
    ensures run.LaunchFailed? ==> r == Fail(UnzipNotLaunched)
    ensures run.Exited? && run.status != 0 ==> r == Fail(UnzipExitStatus(run.status))
  {
    match run
    case LaunchFailed => Fail(UnzipNotLaunched)
    case Exited(status) => if status != 0 then Fail(UnzipExitStatus(status)) else Pass
  }

  /** Both subprocess checks share one success criterion: launched and exited with 0. An
      error never carries status 0. */
  lemma ToolChecksAgree(run: ProcessOutcome)
    ensures UnzipResult(run).Pass? <==> IsUnzipInstalled(run)
    ensures UnzipResult(run).Fail? && UnzipResult(run).error.UnzipExitStatus? ==>
              UnzipResult(run).error.code != 0
  {
  }
}

=== FILE: trace.dfy ===
/**
  The observable behaviour of a run: a sequence of events. UI updates (progress bar,
  status label, file-info label), log lines, I/O requests and the end of the run are all
  events, in the order the single worker issues them.
 */
module Trace {

  /** An I/O request issued to the host. */
  datatype IoAction =
    | ProbeWritable(path: string)          // isWritableFile
    | ProbeFreeSpace(path: string)         // attributesOfFileSystem
    | LookupUnzip                          // /usr/bin/which unzip
    | CreateDirectory(path: string)        // createDirectory, result ignored
    | FetchFileList(url: string)           // Data(contentsOf:) on the list URL
    | Download(url: string, destination: string)
    | CheckExists(path: string)            // fileExists
    | Unzip(archive: string, directory: string)
    | Remove(path: string)                 // removeItem, result ignored
    | ListDirectory(path: string)          // contentsOfDirectory
  {
    /** The requests that fetch, extract or delete an installed file. */
    predicate IsTransfer() {
      Download? || Unzip? || Remove?
    }
  }

  /** One observable step. `M` is the vocabulary of status or log messages. */
  datatype Event<M> =
    | Progress(percent: real)
    | Message(message: M)
    | FileShown(name: string, size: int)
    | FileInfoCleared
    | Io(action: IoAction)
    | Terminate      // NSApp.terminate after an error
    | Completed      // success; the delayed terminate follows
    | Trap           // a Swift runtime trap (arithmetic overflow)
  {
    predicate IsTerminal() {
      Terminate? || Completed? || Trap?
    }

    predicate IsTransfer() {
      Io? && action.IsTransfer()
    }
  }

  /** All I/O requests of a trace, in order. */
  function IoOf<M>(t: seq<Event<M>>): (r: seq<IoAction>)
    ensures |r| <= |t|
  {
    if |t| == 0 then []
    else (if t[0].Io? then [t[0].action] else []) + IoOf(t[1..])
  }

  lemma {:induction false} IoOfAppend<M>(a: seq<Event<M>>, b: seq<Event<M>>)
    ensures IoOf(a + b) == IoOf(a) + IoOf(b)
  {
    if |a| == 0 {
      assert a + b == b;
    } else {
      var head := (if a[0].Io? then [a[0].action] else []);
      assert (a + b)[0] == a[0];
      assert (a + b)[1..] == a[1..] + b;
      IoOfAppend(a[1..], b);
      calc {
        IoOf(a + b);
        head + IoOf(a[1..] + b);
        head + (IoOf(a[1..]) + IoOf(b));
        (head + IoOf(a[1..])) + IoOf(b);
      }
    }
  }

  lemma {:induction false} IoOfNone<M>(t: seq<Event<M>>)
    requires forall i :: 0 <= i < |t| ==> !t[i].Io?
    ensures IoOf(t) == []
  {
    if |t| > 0 {
      IoOfNone(t[1..]);
    }
  }

  /** A trace whose only I/O request is its event at `k`. */
  lemma {:induction false} IoOfSingle<M>(t: seq<Event<M>>, k: nat)
    requires k < |t| && t[k].Io?
    requires forall i :: 0 <= i < |t| && i != k ==> !t[i].Io?
    ensures IoOf(t) == [t[k].action]
  {
    var rest := t[1..];
    if k == 0 {
      IoOfNone(rest);
    } else {
      assert !t[0].Io?;
      assert rest[k - 1] == t[k];
      IoOfSingle(rest, k - 1);
    }
  }

  /** The transfer requests of a trace, in order. */
  function TransfersOf<M>(t: seq<Event<M>>): (r: seq<IoAction>)
    ensures |r| <= |t|
    ensures forall k :: 0 <= k < |r| ==> r[k].IsTransfer()
  {
    if |t| == 0 then []
    else (if t[0].IsTransfer() then [t[0].action] else []) + TransfersOf(t[1..])
  }

  /** A trace whose only transfer request is its event at `k`. */
  lemma {:induction false} TransfersOfSingle<M>(t: seq<Event<M>>, k: nat)
    requires k < |t| && t[k].IsTransfer()
    requires forall i :: 0 <= i < |t| && i != k ==> !t[i].IsTransfer()
    ensures TransfersOf(t) == [t[k].action]
  {
    var rest := t[1..];
    if k == 0 {
      TransfersOfNone(rest);
    } else {
      assert !t[0].IsTransfer();
      assert rest[k - 1] == t[k];
      TransfersOfSingle(rest, k - 1);
    }
  }

  /** The progress values of a trace, in order. */
  function ProgressOf<M>(t: seq<Event<M>>): (r: seq<real>)
    ensures |r| <= |t|
  {
    if |t| == 0 then []
    else (if t[0].Progress? then [t[0].percent] else []) + ProgressOf(t[1..])
  }

  lemma {:induction false} TransfersOfAppend<M>(a: seq<Event<M>>, b: seq<Event<M>>)
    ensures TransfersOf(a + b) == TransfersOf(a) + TransfersOf(b)
  {
    if |a| == 0 {
      assert a + b == b;
    } else {
      var head := (if a[0].IsTransfer() then [a[0].action] else []);
      assert (a + b)[0] == a[0];
      assert (a + b)[1..] == a[1..] + b;
      TransfersOfAppend(a[1..], b);
      calc {
        TransfersOf(a + b);
        head + TransfersOf(a[1..] + b);
        head + (TransfersOf(a[1..]) + TransfersOf(b));
        (head + TransfersOf(a[1..])) + TransfersOf(b);
      }
    }
  }

  lemma {:induction false} TransfersOfNone<M>(t: seq<Event<M>>)
    requires forall i :: 0 <= i < |t| ==> !t[i].IsTransfer()
    ensures TransfersOf(t) == []
  {
    if |t| > 0 {
      TransfersOfNone(t[1..]);
    }
  }

  lemma {:induction false} ProgressOfAppend<M>(a: seq<Event<M>>, b: seq<Event<M>>)
    ensures ProgressOf(a + b) == ProgressOf(a) + ProgressOf(b)
  {
    if |a| == 0 {
      assert a + b == b;
    } else {
      var head := (if a[0].Progress? then [a[0].percent] else []);
      assert (a + b)[0] == a[0];
      assert (a + b)[1..] == a[1..] + b;
      ProgressOfAppend(a[1..], b);
      calc {
        ProgressOf(a + b);
        head + ProgressOf(a[1..] + b);
        head + (ProgressOf(a[1..]) + ProgressOf(b));
        (head + ProgressOf(a[1..])) + ProgressOf(b);
      }
    }
  }

  lemma {:induction false} ProgressOfNone<M>(t: seq<Event<M>>)
    requires forall i :: 0 <= i < |t| ==> !t[i].Progress?
    ensures ProgressOf(t) == []
  {
    if |t| > 0 {
      ProgressOfNone(t[1..]);
    }
  }

  /** A trace whose first event is the only progress report. */
  lemma ProgressOfLeading<M>(p: real, t: seq<Event<M>>)
    requires forall i :: 0 <= i < |t| ==> !t[i].Progress?
    ensures ProgressOf([Progress(p)] + t) == [p]
  {
    ProgressOfAppend([Progress(p)], t);
    ProgressOfNone(t);
  }

  /** A trace with no terminal event: the run goes on after it. */
  ghost predicate Unended<M>(t: seq<Event<M>>) {
    forall p :: 0 <= p < |t| ==> !t[p].IsTerminal()
  }

  lemma UnendedAppend<M>(a: seq<Event<M>>, b: seq<Event<M>>)
    requires Unended(a) && Unended(b)
    ensures Unended(a + b)
  {
    forall p | |a| <= p < |a + b|
      ensures !(a + b)[p].IsTerminal()
    {
      assert (a + b)[p] == b[p - |a|];
    }
  }

  /** A trace with exactly one terminal event, at its end. */
  ghost predicate EndsOnce<M>(t: seq<Event<M>>) {
    && |t| > 0
    && t[|t| - 1].IsTerminal()
    && forall p :: 0 <= p < |t| - 1 ==> !t[p].IsTerminal()
  }

  lemma EndsOnceAppend<M>(a: seq<Event<M>>, b: seq<Event<M>>)
    requires forall p :: 0 <= p < |a| ==> !a[p].IsTerminal()
    requires EndsOnce(b)
    ensures EndsOnce(a + b)
    ensures (a + b)[|a + b| - 1] == b[|b| - 1]
  {
    forall p | 0 <= p < |a + b| - 1
      ensures !(a + b)[p].IsTerminal()
    {
      if p >= |a| {
        assert (a + b)[p] == b[p - |a|];
      }
    }
  }

  /** The downloads among a list of requests, in order. */
  function DownloadsIn(io: seq<IoAction>): (r: seq<IoAction>)
    ensures |r| <= |io|
    ensures forall k :: 0 <= k < |r| ==> r[k].Download?
  {
    if |io| == 0 then []
    else (if io[0].Download? then [io[0]] else []) + DownloadsIn(io[1..])
  }

  lemma {:induction false} DownloadsInAppend(a: seq<IoAction>, b: seq<IoAction>)
    ensures DownloadsIn(a + b) == DownloadsIn(a) + DownloadsIn(b)
  {
    if |a| == 0 {
      assert a + b == b;
    } else {
      var head := (if a[0].Download? then [a[0]] else []);
      assert (a + b)[0] == a[0];
      assert (a + b)[1..] == a[1..] + b;
      DownloadsInAppend(a[1..], b);
      calc {
        DownloadsIn(a + b);
        head + DownloadsIn(a[1..] + b);
        head + (DownloadsIn(a[1..]) + DownloadsIn(b));
        (head + DownloadsIn(a[1..])) + DownloadsIn(b);
      }
    }
  }

  /** Non-decreasing, as the progress bar's value must be. */
  ghost predicate NonDecreasing(p: seq<real>) {
    forall i, j :: 0 <= i < j < |p| ==> p[i] <= p[j]
  }

  lemma NonDecreasingAppend(a: seq<real>, b: seq<real>)
    requires NonDecreasing(a) && NonDecreasing(b)
    requires forall i, j :: 0 <= i < |a| && 0 <= j < |b| ==> a[i] <= b[j]
    ensures NonDecreasing(a + b)
  {
  }
}

=== FILE: transfer.dfy ===
/**
  The strings `getFileList` and `downloadFile` build: the list URL, the per-file URL and the
  local destination path, together with the inverses that recover the file name from them.
 */
module Transfer {
  import opened Wrappers
  import opened Manifest

  /** Why `downloadFile` threw: the read of the file URL failed, or writing the bytes did. */
  datatype DownloadError = ReadFailed | WriteFailed

  /** `"\(serverURL)/files"`, read by `getFileList`. */
  function ManifestURL(server: string): string {
    server + "/files"
  }

  /** `"\(serverURL)/files/\(filename)"`, read by `downloadFile`. */
  function DownloadURL(server: string, name: string): string {
    server + "/files/" + name
  }

  /** `"\(tempDir)/\(filename)"`: where `downloadFile` writes, and the archive path handed to
      `unzipFile` and `removeItem`. */
  function Destination(dir: string, name: string): string {
    dir + "/" + name
  }

  /** The rest of `s` after `prefix`, if `s` starts with `prefix`. */
  function StripPrefix(prefix: string, s: string): (r: Option<string>)
    ensures r.Some? <==> prefix <= s
    ensures r.Some? ==> prefix + r.value == s
  {
    if prefix <= s then Some(s[|prefix|..]) else None
  }

  /** The file name a download URL of `server` requests. */
  function NameInURL(server: string, url: string): Option<string> {
    StripPrefix(server + "/files/", url)
  }

  /** The file name a path directly under `dir` designates. */
  function NameInPath(dir: string, path: string): Option<string> {
    StripPrefix(dir + "/", path)
  }

  /** The requested URL determines the file name: distinct entries are fetched from distinct
      URLs of the same server, and every file URL lies under the list URL. */
  lemma DownloadURLRoundTrip(server: string, name: string)
    ensures NameInURL(server, DownloadURL(server, name)) == Some(name)
    ensures ManifestURL(server) < DownloadURL(server, name)
  {
    var url := DownloadURL(server, name);
    assert url == (server + "/files/") + name;
    assert url[..|server + "/files/"|] == server + "/files/";
    assert url[..|ManifestURL(server)|] == ManifestURL(server);
  }

  /** The destination determines the file name, so distinct names never share a path. */
  lemma DestinationRoundTrip(dir: string, name: string)
    ensures NameInPath(dir, Destination(dir, name)) == Some(name)
  {
    var path := Destination(dir, name);
    assert path[..|dir + "/"|] == dir + "/";
  }

  /** Distinct names give distinct URL strings; whether the server treats two strings as
      one URL is not part of the model. */
  lemma DownloadURLInjective(server: string, a: string, b: string)
    requires DownloadURL(server, a) == DownloadURL(server, b)
    ensures a == b
  {
    DownloadURLRoundTrip(server, a);
    DownloadURLRoundTrip(server, b);
  }

  /** Distinct names give distinct path strings; whether the file system maps two strings
      to one file is not part of the model. */
  lemma DestinationInjective(dir: string, a: string, b: string)
    requires Destination(dir, a) == Destination(dir, b)
    ensures a == b
  {
    DestinationRoundTrip(dir, a);
    DestinationRoundTrip(dir, b);
  }

  /**
    The archive test gives the same answer on an entry's name and on its destination path:
    the separator `/` can never be part of the `.zip` suffix.
   */
  lemma ArchiveDestination(dir: string, name: string)
    ensures IsArchive(Destination(dir, name)) <==> IsArchive(name)
  {
    var path := Destination(dir, name);
    var n := |ArchiveSuffix|;
    if |name| >= n {
      assert path[|path| - n..] == name[|name| - n..];
    } else {
      var slash := |path| - |name| - 1;
      assert path[slash] == '/';
      assert |path| >= n ==> path[|path| - n..][n - |name| - 1] == path[slash];
      assert ArchiveSuffix[n - |name| - 1] != '/';
    }
  }
}

=== FILE: wrappers.dfy ===
/** Failure-carrying values used for the outcomes the host reports back to the installer. */
module Wrappers {

  /** A value that may be missing, such as an attribute the file system did not return. */
  datatype Option<+T> = None | Some(value: T)

  /** A value or the error that prevented computing it (a Swift `throws` call). */
  datatype Result<+T, +E> = Success(value: T) | Failure(error: E)

  /** Whether an action that yields no value succeeded, and why not when it did not. */
  datatype Outcome<+E> = Pass | Fail(error: E)
}
